=== FILE: README.md ===
# Path generator of mirrulations, modelled in Dafny

mirrulations mirrors regulations.gov. Every docket, document and comment it
downloads is stored as JSON under a path derived from the record itself:

    /{agencyId}/{docketId}/text-{docketId}/{docket|documents|comments}/{id}.json

The binary attachments of a record go to the following path. The folder is
`comments_attachments` whatever the record's type, documents included:

    /{agencyId}/{docketId}/binary-{docketId}/comments_attachments/{itemId}_{fileName}

The text extracted from an attachment goes to a path derived from the
attachment path:

- `binary` becomes `text`;
- the attachments folder becomes `comments_extracted_text/pdfminer`, or the
  `documents_` equivalent;
- `.pdf` becomes `_extracted.txt`.

This project models the `PathGenerator` class that computes these paths:

- `get_path`;
- the nested-key reader `_get_nested_keys_in_json`;
- `parse_docket_id`;
- `get_attributes`;
- the three record templates;
- `get_attachment_json_paths`;
- `make_attachment_save_path`.

It then proves what the paths mean.

Files:

- `wrappers.dfy` (`Wrappers`): `Option`, which stands for Python's `None`.
- `json.dfy` (`Json`): the parsed-JSON value and the nested-key read.
  - `Reach` is a recursive reference definition.
  - `GetNestedKeysInJson` is the source's loop.
- `strings.dfy` (`Strings`): Python's `str.split` and `str.join` on one
  separator character, and `split(sep)[-1]`. Includes the round-trip lemmas
  between them.
- `replace.dfy` (`Replace`): Python's `in` on strings, and `str.replace` as a
  left-to-right scan that replaces non-overlapping occurrences. Includes the
  lemmas that say when a pattern survives a replacement.
- `path_generator.dfy` (`PathGenerator`): the operations of the class.
- `path_properties.dfy` (`PathProperties`): properties that relate several
  operations. For identifiers without `/`, a record path splits back into
  agency, docket, `text-<docket>`, folder and `<id>.json`, and equal paths
  mean equal agency, docket, folder and id. Nothing keeps `/` out of the
  identifiers, and when one holds a `/`, two different identifier tuples can
  give the same path. Two different records with the same four resolved
  identifiers also share a path. The extraction path of a generated
  attachment path is the expected text file.
- `path_examples.dfy` (`PathExamples`): worked examples on the EPA-2020-0001
  records. They cover the parsing of a docket id, `get_path` on a docket, a
  document, a comment and two records without data, the nested-key read, the
  attachment paths of a comment, and the extraction path of that attachment.

Inputs on which Python raises are excluded by preconditions:

- a key read with `[]` that is missing;
- a `[]` or `in` applied to a value that is not a container;
- string concatenation with a non-string.

The preconditions are `Walkable`, `AttributesReadable`, `PathReadable` and
`AttachmentsReadable`.

`Walkable` also excludes a few inputs on which the code runs without raising
(see "## Left out"). The following cases of the code are part of the model:

- a missing field;
- a null field;
- a missing `docketId`;
- an empty `fileFormats`;
- a format without a `fileUrl`.

Behaviour of the code that the model keeps as written:

- **`data` that is `{}`.** `get_path` tests only for a missing `data` and
  for `data == []`. For `{}` it reads `data["type"]` and raises `KeyError`.
  `PathReadable` therefore asks for a `type` whenever `data` is present and
  is not `[]`.
- **Unknown type.** A `data.type` other than the three falls off the end of
  `get_path`, which returns `None`. `GetPath` returns `None` in exactly that
  case.
- **Every `.pdf`.** `str.replace` rewrites every `.pdf` in the path, not only
  the one at the end. `MakeAttachmentSavePath` does the same.
- **Id without a hyphen.** `parse_docket_id` of an id with no hyphen returns
  the empty string, not `"unknown"`. `ParseDocketIdBeforeLastHyphen` states
  this.

## Model

| member | source | states |
|---|---|---|
| Json.GetNestedKeysInJson | mirrulations-core/src/mirrcore/path_generator.py:47-61 | The loop returns the value at the end of the key path when every key is present. It returns the default as soon as one key is missing. With no keys it returns the input itself. |
| Json.MissingKeyIsFinal | mirrulations-core/src/mirrcore/path_generator.py:55-57 | Once a key on the path is missing, the whole lookup is missing, whatever keys follow. |
| Json.ReachAppend | mirrulations-core/src/mirrcore/path_generator.py:53-61 | Walking a key path `a + b` is walking `a`, then walking `b` from the value reached. |
| Strings.JoinSplit | mirrulations-core/src/mirrcore/path_generator.py:67-69 | Joining the pieces of a split with the same separator gives back the original string. |
| Strings.SplitJoin | mirrulations-core/src/mirrcore/path_generator.py:67-69 | Splitting a join of separator-free pieces gives back the pieces. |
| Strings.LastSegment | mirrulations-core/src/mirrcore/path_generator.py:137 | The last segment of a URL holds no `/` and is a suffix of the URL. |
| Strings.LastSegmentNoSep | mirrulations-core/src/mirrcore/path_generator.py:137 | A URL with no `/` is its own last segment. |
| Strings.LastSegmentAfterSep | mirrulations-core/src/mirrcore/path_generator.py:137 | For a URL whose file name comes after its last `/`, the last segment is exactly that file name. |
| PathGenerator.ParseDocketIdStripsSequence | mirrulations-core/src/mirrcore/path_generator.py:63-72 | An id of the form `<docketId>-<sequence>` with a hyphen-free sequence parses back to `<docketId>`. This covers the document and comment id formats of the class comment. |
| PathGenerator.ParseDocketIdBeforeLastHyphen | mirrulations-core/src/mirrcore/path_generator.py:63-72 | For any id, the parse is the prefix before its last hyphen. The rest after that hyphen is hyphen-free. An id with no hyphen parses to the empty string. |
| PathGenerator.GetAttributes | mirrulations-core/src/mirrcore/path_generator.py:75-103 | The agency is `data.attributes.agencyId` or "unknown". A docket's own id is its docket id, and it has no item id. A document or comment has its id as item id ("unknown" if absent). Its docket id is `data.attributes.docketId` when present, otherwise the id parsed from its item id. |
| PathGenerator.DocketIdFromItemId | mirrulations-core/src/mirrcore/path_generator.py:88-92 | A document or comment without a `docketId` gets the docket id its own id was built from. |
| PathGenerator.GetDocketJsonPath | mirrulations-core/src/mirrcore/path_generator.py:105-108 | A docket's path uses the record's id both as the docket folder and as the file name, under the record's agency. Each missing field becomes "unknown". |
| PathGenerator.GetDocumentJsonPath | mirrulations-core/src/mirrcore/path_generator.py:111-114 | A document is filed under its agency, in the `documents` folder of its docket, under its own id. The docket is the `docketId` field, or else the docket parsed from the document's id. Each missing field becomes "unknown". |
| PathGenerator.GetCommentJsonPath | mirrulations-core/src/mirrcore/path_generator.py:116-119 | A comment is filed under its agency, in the `comments` folder of its docket, under its own id. The docket is the `docketId` field, or else the docket parsed from the comment's id. Each missing field becomes "unknown". |
| PathGenerator.GetPath | mirrulations-core/src/mirrcore/path_generator.py:36-44 | The sentinel path is returned exactly when `data` is missing or `[]`. No path (`None`) is returned exactly when the type is none of the three. Every path returned is rooted at `/` and ends in `.json`. |
| PathGenerator.TextPathIsNotUnknown | mirrulations-core/src/mirrcore/path_generator.py:37-44 | No record path, whatever its identifiers, is the sentinel path. A record with data can therefore never be mistaken for one without. |
| PathProperties.GetPathByType | mirrulations-core/src/mirrcore/path_generator.py:39-44 | Dispatch on `data.type`. `dockets`, `documents` and `comments` each get their own template, filled from the record's id and agency. Documents and comments use the `docketId` field when present and the docket parsed from their id otherwise. |
| PathProperties.TextPathSegments | mirrulations-core/src/mirrcore/path_generator.py:105-119 | When no identifier contains `/`, splitting a record path on `/` gives back agency, docket, `text-<docket>`, folder and `<id>.json`. |
| PathProperties.TextPathInjective | mirrulations-core/src/mirrcore/path_generator.py:105-119 | For identifiers that hold no `/`, two record paths are equal only if agency, docket, folder and id all agree. |
| PathProperties.SlashCollision | mirrulations-core/src/mirrcore/path_generator.py:116-119 | Without that condition injectivity fails: folder `f/g` with id `n` and folder `f` with id `g/n` give the same path. |
| PathGenerator.FormatUrlsAllPresent | mirrulations-core/src/mirrcore/path_generator.py:135-139 | When every format has a `fileUrl`, there is one URL per format, in format order. |
| PathGenerator.FormatUrlsAllAbsent | mirrulations-core/src/mirrcore/path_generator.py:135-141 | Formats without a `fileUrl` contribute no URL. |
| PathGenerator.FormatUrlsAppend | mirrulations-core/src/mirrcore/path_generator.py:135-141 | The URLs of concatenated format lists are the concatenated URLs, order kept. |
| PathGenerator.FileUrlsAppend | mirrulations-core/src/mirrcore/path_generator.py:131-143 | The URLs of concatenated `included` lists are the concatenated URLs, order kept. |
| PathGenerator.SkippedEntryContributesNothing | mirrulations-core/src/mirrcore/path_generator.py:134-143 | An `included` entry whose `fileFormats` is falsy, `"null"` or null is skipped. Removing it changes nothing in the result. |
| PathGenerator.GetAttachmentJsonPaths | mirrulations-core/src/mirrcore/path_generator.py:121-145 | The nested loops return exactly one path per format object with a `fileUrl`. Paths come in `included` order, then `fileFormats` order. Each is the attachment path of that URL for the record's resolved attributes. |
| PathGenerator.AppendFormatPaths | mirrulations-core/src/mirrcore/path_generator.py:135-141 | The inner loop leaves the paths collected so far in front, and appends the paths of the formats that have a URL, in order. |
| PathProperties.BinaryPathSegments | mirrulations-core/src/mirrcore/path_generator.py:139 | When no identifier contains `/`, splitting an attachment path on `/` gives back agency, docket, `binary-<docket>`, `comments_attachments` and the attachment id. |
| PathProperties.BinaryPathLastSegment | mirrulations-core/src/mirrcore/path_generator.py:137-139 | The last segment of an attachment path is the attachment id it was built from. |
| PathGenerator.MakeAttachmentSavePath | mirrulations-core/src/mirrcore/path_generator.py:147-165 | The save path holds no `binary` and no `.pdf`, on either branch. A path holding none of the four rewritten patterns comes back unchanged. |
| PathProperties.RewriteStoragePath | mirrulations-core/src/mirrcore/path_generator.py:158-165 | A replacement whose pattern has no `/` or `-` and does not occur in agency or docket acts piece by piece on a storage path. Only the kind, the folder and the file name are rewritten. |
| PathProperties.ExtractionPathOfAttachment | mirrulations-core/src/mirrcore/path_generator.py:139-161 | Take the attachment path of file `name` on item `i`, with identifiers free of the rewritten patterns. Its save path is `/{agency}/{docket}/text-{docket}/comments_extracted_text/pdfminer/{i}_{name}`, with `.pdf` in `name` replaced by `_extracted.txt`. |
| PathExamples.ExampleParseDocumentId | mirrulations-core/src/mirrcore/path_generator.py:63-72 | `EPA-2020-0001-0001` parses to docket `EPA-2020-0001`. |
| PathExamples.ExampleDocketPath | mirrulations-core/src/mirrcore/path_generator.py:105-108 | The EPA-2020-0001 docket record is stored at `/EPA/EPA-2020-0001/text-EPA-2020-0001/docket/EPA-2020-0001.json`. |
| PathExamples.ExampleDocumentPath | mirrulations-core/src/mirrcore/path_generator.py:111-114 | A document record without `docketId` is stored at `/EPA/EPA-2020-0001/text-EPA-2020-0001/documents/EPA-2020-0001-0001.json`, its docket parsed from its id. |
| PathExamples.ExampleAttachmentPath | mirrulations-core/src/mirrcore/path_generator.py:126-139 | Take a comment EPA-2020-0001-0001 with no `docketId` and one format whose `fileUrl` is `https://host/path/file1.pdf`. It is readable, its one URL is that one, and the URL's attachment path is `/EPA/EPA-2020-0001/binary-EPA-2020-0001/comments_attachments/EPA-2020-0001-0001_file1.pdf`. |
| PathExamples.ExampleAttachmentJsonPaths | mirrulations-core/src/mirrcore/path_generator.py:121-145 | `get_attachment_json_paths` on that comment returns exactly that one path. |
| PathExamples.ExampleCommentPath | mirrulations-core/src/mirrcore/path_generator.py:116-119 | The comment EPA-2020-0001-0001, which has no `docketId`, is readable and is stored at `/EPA/EPA-2020-0001/text-EPA-2020-0001/comments/EPA-2020-0001-0001.json`. |
| PathExamples.ExampleNoDataPath | mirrulations-core/src/mirrcore/path_generator.py:36-38 | A record without `data`, and one whose `data` is the empty list, both get `/unknown/unknown.json`. |
| PathExamples.ExampleNestedKeys | mirrulations-core/src/mirrcore/path_generator.py:47-61 | On the docket record, the path `data.attributes.agencyId` reads `"EPA"` and the missing `data.attributes.docketId` gives the default. |
| PathExamples.ExampleExtractionPath | mirrulations-core/src/mirrcore/path_generator.py:158-161 | The text extracted from that attachment is saved at `/EPA/EPA-2020-0001/text-EPA-2020-0001/comments_extracted_text/pdfminer/EPA-2020-0001-0001_file1_extracted.txt`. |

## Left out

- Diagnostic `print` calls (path_generator.py lines 70-71, 93, 141, 143) are not modelled. They write to standard output and do not affect any result. The entry `id` read at line 132 is only used by them.
- Python exceptions (`TypeError`, `KeyError`, `AttributeError`) raised on malformed records are not modelled as results. They are excluded by the preconditions named above.
- Json.Walkable: requires every value met on a key path before the last key to be a dict. When such a value is a string or a list, Python's `in` is a substring or membership test and does not raise. Such records are excluded. Two examples:
  - With `{"data": [], "included": [...]}`, `get_attachment_json_paths` returns paths under `/unknown/unknown/binary-unknown/`.
  - With `"attributes": "x"`, `get_path` files a document under agency `unknown`.
- `mock_document_count.py` is not part of this model. It is a test double for the document-count store, which the path generator never calls.
- JSON numbers are modelled as integers. Floating-point values play no part in any path.
- PathGenerator.GetAttributes: identifiers must be strings or null. Python would format a number or a list into the f-string path with `str()`. String formatting of arbitrary JSON values is not modelled.
- PathGenerator.GetAttachmentJsonPaths: a `fileFormats` value that passes the truthiness test must be a list of dicts. Python would also iterate over the keys of a dict or the characters of a string there, and such records are not modelled.
- PathProperties.ExtractionPathOfAttachment: stated for comment attachments only, which are the only paths `get_attachment_json_paths` builds. For the `documents_attachments` branch, only the general guarantees of `MakeAttachmentSavePath` are proved.

=== FILE: json.dfy ===
/**
 A parsed JSON value as Python sees it after `json.load`, and the nested-key
 read with a default value that the path generator uses to pull fields out
 of a record.
 */
module Json {
  import opened Wrappers

  /** A parsed JSON value. `JNull` is Python's `None`; objects are dicts. */
  datatype Json =
    | JNull
    | JBool(b: bool)
    | JNum(n: int)
    | JStr(str: string)
    | JArr(items: seq<Json>)
    | JObj(fields: map<string, Json>)

  /** Python truthiness: `None`, `False`, zero and empty containers are false. */
  predicate Truthy(j: Json) {
    match j
    case JNull => false
    case JBool(b) => b
    case JNum(n) => n != 0
    case JStr(s) => |s| > 0
    case JArr(xs) => |xs| > 0
    case JObj(m) => |m| > 0
  }

  /** Every `key in value` test the walk performs is made on a dict: the walk
      stops at the first missing key, and before that each value is an object. */
  predicate Walkable(j: Json, keys: seq<string>)
    decreases |keys|
  {
    |keys| == 0 || (j.JObj? && (keys[0] in j.fields ==> Walkable(j.fields[keys[0]], keys[1..])))
  }

  /** The value reached by following every key in turn, or None as soon as a
      key is missing (or the value at hand is not an object). */
  function Reach(j: Json, keys: seq<string>): Option<Json>
    decreases |keys|
  {
    if |keys| == 0 then Some(j)
    else if j.JObj? && keys[0] in j.fields then Reach(j.fields[keys[0]], keys[1..])
    else None
  }

  /** `_get_nested_keys_in_json` as a value: the value at the end of the key
      path, or `default` when some key on it is missing. */
  function Lookup(j: Json, keys: seq<string>, default: Json): Json
    requires Walkable(j, keys)
  {
    Reach(j, keys).GetOr(default)
  }

  /** Following `a + b` is following `a`, then `b` from wherever `a` ended. */
  lemma {:induction false} ReachAppend(j: Json, a: seq<string>, b: seq<string>)
    ensures Reach(j, a + b) == match Reach(j, a) case None => None case Some(v) => Reach(v, b)
    decreases |a|
  {
    if |a| == 0 {
      assert a + b == b;
    } else {
      assert (a + b)[0] == a[0];
      assert (a + b)[1..] == a[1..] + b;
      if j.JObj? && a[0] in j.fields {
        ReachAppend(j.fields[a[0]], a[1..], b);
      }
    }
  }

  /** Once a key on the path is missing, the rest of the path is never read:
      the result stays None however the path continues. */
  lemma MissingKeyIsFinal(j: Json, keys: seq<string>, n: nat)
    requires n <= |keys| && Reach(j, keys[..n]) == None
    ensures Reach(j, keys) == None
  {
    ReachAppend(j, keys[..n], keys[n..]);
    assert keys[..n] + keys[n..] == keys;
  }

  /** Walkability of a path carries over to the rest of the path from any
      point the walk reaches. */
  lemma {:induction false} WalkableAfter(j: Json, keys: seq<string>, n: nat, v: Json)
    requires n <= |keys| && Walkable(j, keys) && Reach(j, keys[..n]) == Some(v)
    ensures Walkable(v, keys[n..])
    decreases n
  {
    if n > 0 {
      assert keys[..n][0] == keys[0];
      assert keys[..n][1..] == keys[1..][..n - 1];
      assert keys[n..] == keys[1..][n - 1..];
      WalkableAfter(j.fields[keys[0]], keys[1..], n - 1, v);
    }
  }

  /** `_get_nested_keys_in_json`, loop for loop: walk the keys in order, return
      `default` at the first missing key, else the value reached. */
  method GetNestedKeysInJson(j: Json, keys: seq<string>, default: Json) returns (r: Json)
    requires Walkable(j, keys)
    ensures Reach(j, keys) == Some(r) || (Reach(j, keys) == None && r == default)
    ensures |keys| == 0 ==> r == j
    ensures r == Lookup(j, keys, default)
  {
    var subset := j;
    for i := 0 to |keys|
      invariant Reach(j, keys[..i]) == Some(subset)
    {
      WalkableAfter(j, keys, i, subset);
      assert keys[i..][0] == keys[i];
      ReachAppend(j, keys[..i], [keys[i]]);
      assert keys[..i + 1] == keys[..i] + [keys[i]];
      if keys[i] !in subset.fields {
        MissingKeyIsFinal(j, keys, i + 1);
        return default;
      }
      subset := subset.fields[keys[i]];
    }
    assert keys[..|keys|] == keys;
    return subset;
  }
}

=== FILE: path_examples.dfy ===
/**
 Worked examples from the regulations.gov id conventions: an EPA docket, one
 of its documents, one of its comments with an attachment, and records
 without data.

 The lemmas named `...Text`, together with `TextPathFrom` and `RegroupFolder`,
 only glue short string literals together. An equality between long literals
 is costly for the verifier, so each one is split into pieces of a few dozen
 characters.
 */
module PathExamples {
  import opened Wrappers
  import opened Json
  import opened Strings
  import opened Replace
  import opened PathGenerator
  import opened PathProperties

  const EpaDocket: string := "EPA-2020-0001"
  const EpaDocument: string := "EPA-2020-0001-0001"

  /** A document id with its sequence number parses to its docket id. */
  lemma ExampleParseDocumentId()
    ensures ParseDocketId(Some(EpaDocument)) == EpaDocket
  {
    assert EpaDocument == EpaDocket + "-" + "0001";
    ParseDocketIdStripsSequence(EpaDocket, "0001");
  }

  /** The `data` object of a record with the given id, type and agency. */
  function Data(id: string, kind: string, agency: string): Json {
    JObj(map["id" := JStr(id), "type" := JStr(kind), "attributes" := JObj(map["agencyId" := JStr(agency)])])
  }

  /** The fields of a record with such a `data` object are where the path
      generator looks for them. */
  lemma DataFields(record: Json, id: string, kind: string, agency: string)
    requires record.JObj? && "data" in record.fields && record.fields["data"] == Data(id, kind, agency)
    ensures && !NoData(record) && TypeOf(record) == JStr(kind)
      && Walkable(record, IdKeys) && FieldAt(record, IdKeys) == Some(id)
      && Lookup(record, IdKeys, JNull) == JStr(id)
      && Walkable(record, AgencyKeys) && FieldAt(record, AgencyKeys) == Some(agency)
      && Lookup(record, AgencyKeys, JNull) == JStr(agency)
      && Walkable(record, DocketKeys) && FieldAt(record, DocketKeys) == None
      && Lookup(record, DocketKeys, JNull) == JNull
  {
    var data := Data(id, kind, agency);
    var attributes := JObj(map["agencyId" := JStr(agency)]);
    assert data.fields["attributes"] == attributes;
    assert IdKeys[1..] == ["id"] && IdKeys[1..][1..] == [];
    assert AgencyKeys[1..] == ["attributes", "agencyId"] && AgencyKeys[1..][1..] == ["agencyId"];
    assert AgencyKeys[1..][1..][1..] == [];
    assert DocketKeys[1..] == ["attributes", "docketId"] && DocketKeys[1..][1..] == ["docketId"];
    assert "docketId" !in attributes.fields;
  }

  /** The agency and docket folders of EPA-2020-0001. */
  lemma EpaHeadText()
    ensures "/" + "EPA" + "/" + EpaDocket == "/EPA/EPA-2020-0001"
  {
  }

  /** A record path assembled from its head, its text folder and its tail. */
  lemma TextPathFrom(a: string, d: string, f: string, n: string, head: string, folder: string, tail: string)
    requires head == "/" + a + "/" + d && folder == "/text-" + d && tail == "/" + f + "/" + (n + ".json")
    ensures TextPath(a, d, f, n) == head + folder + tail
  {
  }

  /** The text folder of EPA-2020-0001. */
  lemma EpaTextFolderText()
    ensures "/text-" + EpaDocket == "/text-EPA-2020-0001"
  {
  }

  /** The file part of the docket path of EPA-2020-0001. */
  lemma DocketTailText()
    ensures "/" + "docket" + "/" + (EpaDocket + ".json") == "/docket/" + "EPA-2020-0001.json"
  {
    assert "/" + "docket" + "/" == "/docket/";
  }

  /** The file part of the document path of EPA-2020-0001-0001. */
  lemma DocumentTailText()
    ensures "/" + "documents" + "/" + (EpaDocument + ".json") == "/documents/" + "EPA-2020-0001-0001.json"
  {
    assert "/" + "documents" + "/" == "/documents/";
  }

  /** The docket template filled in for EPA-2020-0001. */
  lemma DocketPathText()
    ensures TextPath("EPA", EpaDocket, "docket", EpaDocket)
            == "/EPA/EPA-2020-0001" + "/text-EPA-2020-0001" + "/docket/" + "EPA-2020-0001.json"
  {
    EpaHeadText();
    EpaTextFolderText();
    DocketTailText();
    TextPathFrom("EPA", EpaDocket, "docket", EpaDocket,
                 "/EPA/EPA-2020-0001", "/text-EPA-2020-0001", "/docket/" + "EPA-2020-0001.json");
  }

  /** The document template filled in for EPA-2020-0001-0001. */
  lemma DocumentPathText()
    ensures TextPath("EPA", EpaDocket, "documents", EpaDocument)
            == "/EPA/EPA-2020-0001" + "/text-EPA-2020-0001" + "/documents/" + "EPA-2020-0001-0001.json"
  {
    EpaHeadText();
    EpaTextFolderText();
    DocumentTailText();
    TextPathFrom("EPA", EpaDocket, "documents", EpaDocument,
                 "/EPA/EPA-2020-0001", "/text-EPA-2020-0001", "/documents/" + "EPA-2020-0001-0001.json");
  }

  /** A docket record with agency and id is filed under its own id. */
  lemma ExampleDocketPath()
    ensures GetPath(JObj(map["data" := Data(EpaDocket, "dockets", "EPA")]))
            == Some("/EPA/EPA-2020-0001" + "/text-EPA-2020-0001" + "/docket/" + "EPA-2020-0001.json")
  {
    var record := JObj(map["data" := Data(EpaDocket, "dockets", "EPA")]);
    DataFields(record, EpaDocket, "dockets", "EPA");
    assert KindOf(TypeOf(record)) == Some(Docket);
    assert AttributesReadable(record, true);
    assert GetPath(record) == Some(GetDocketJsonPath(record));
    assert GetDocketJsonPath(record) == TextPath("EPA", EpaDocket, "docket", EpaDocket);
    DocketPathText();
  }

  /** A document record without a `docketId` gets the docket its id names. */
  lemma ExampleDocumentPath()
    ensures GetPath(JObj(map["data" := Data(EpaDocument, "documents", "EPA")]))
            == Some("/EPA/EPA-2020-0001" + "/text-EPA-2020-0001" + "/documents/" + "EPA-2020-0001-0001.json")
  {
    var record := JObj(map["data" := Data(EpaDocument, "documents", "EPA")]);
    DataFields(record, EpaDocument, "documents", "EPA");
    assert KindOf(TypeOf(record)) == Some(Document);
    assert AttributesReadable(record, false);
    ExampleParseDocumentId();
    assert GetAttributes(record, false).docketId == EpaDocket;
    assert GetPath(record) == Some(GetDocumentJsonPath(record));
    assert GetDocumentJsonPath(record) == TextPath("EPA", EpaDocket, "documents", EpaDocument);
    DocumentPathText();
  }

  /** The EPA identifiers and file name hold none of the rewritten patterns. */
  lemma ExampleIdsArePlain()
    ensures Plain("EPA") && Plain(EpaDocket) && Plain(EpaDocument)
    ensures !Contains("file1.pdf", "binary")
    ensures !Contains(EpaDocument + "_" + "file1.pdf", "comments_attachments")
  {
    MissingCharAbsent("EPA", "binary", 'b');
    MissingCharAbsent("EPA", "comments_attachments", 'c');
    MissingCharAbsent("EPA", ".pdf", '.');
    MissingCharAbsent(EpaDocket, "binary", 'b');
    MissingCharAbsent(EpaDocket, "comments_attachments", 'c');
    MissingCharAbsent(EpaDocket, ".pdf", '.');
    MissingCharAbsent(EpaDocument, "binary", 'b');
    MissingCharAbsent(EpaDocument, "comments_attachments", 'c');
    MissingCharAbsent(EpaDocument, ".pdf", '.');
    MissingCharAbsent("file1.pdf", "binary", 'b');
    MissingCharAbsent(EpaDocument + "_" + "file1.pdf", "comments_attachments", 'c');
  }

  /** The one `.pdf` of the file name becomes `_extracted.txt`. */
  lemma ExamplePdfName()
    ensures ReplaceAll("file1.pdf", ".pdf", "_extracted.txt") == "file1_extracted.txt"
  {
    assert "file1.pdf" == "file1" + ".pdf";
    ReplaceAllKeepsPrefix("file1", ".pdf", ".pdf", "_extracted.txt");
    ReplaceAllAtMatch(".pdf", "_extracted.txt", "");
    assert ".pdf" + "" == ".pdf";
    assert "file1" + "_extracted.txt" == "file1_extracted.txt";
  }

  /** The agency and docket folders of EPA-2020-0001, then its binary folder. */
  lemma BinaryHeadText()
    ensures "/" + "EPA" + "/" + EpaDocket + "/binary-" + EpaDocket
            == "/EPA/EPA-2020-0001" + "/binary-EPA-2020-0001"
  {
    EpaHeadText();
    assert "/binary-" + EpaDocket == "/binary-EPA-2020-0001";
  }

  /** The attachment file name of `file1.pdf` on EPA-2020-0001-0001. */
  lemma AttachmentNameText()
    ensures "/comments_attachments/" + (EpaDocument + "_" + "file1.pdf")
            == "/comments_attachments/" + "EPA-2020-0001-0001_file1.pdf"
  {
  }

  /** The download URL of the attachment `file1.pdf`. */
  const FileUrl: string := "https://host/path/file1.pdf"

  /** One `included` entry whose only file format has the given URL. */
  function IncludedEntry(url: string): Json {
    JObj(map["attributes" := JObj(map["fileFormats" := JArr([JObj(map["fileUrl" := JStr(url)])])])])
  }

  /** A comment on EPA-2020-0001 (its id EPA-2020-0001-0001, no `docketId`)
      with one attachment at the given URL. */
  function CommentWithAttachment(url: string): Json {
    JObj(map["data" := Data(EpaDocument, "comments", "EPA"), "included" := JArr([IncludedEntry(url)])])
  }

  /** An `included` entry with one format object: readable, and contributing
      that object's URL. */
  lemma IncludedEntryUrls(url: string)
    ensures EntryReadable(IncludedEntry(url))
    ensures FileUrls([IncludedEntry(url)]) == [url]
  {
    var format := JObj(map["fileUrl" := JStr(url)]);
    assert FileFormatsOf(IncludedEntry(url)) == JArr([format]);
    assert FormatUrls([format]) == [url] + FormatUrls([format][1..]);
    assert FileUrls([IncludedEntry(url)]) == EntryUrls(IncludedEntry(url)) + FileUrls([]);
  }

  /** The two top-level fields of the comment. */
  lemma CommentFields(url: string)
    ensures var record := CommentWithAttachment(url);
      && record.JObj? && "data" in record.fields && "included" in record.fields
      && record.fields["data"] == Data(EpaDocument, "comments", "EPA")
      && record.fields["included"] == JArr([IncludedEntry(url)])
  {
  }

  /** The comment resolves to agency EPA, docket EPA-2020-0001 and item
      EPA-2020-0001-0001, the docket parsed from the item id. */
  lemma CommentAttributes(url: string)
    ensures AttributesReadable(CommentWithAttachment(url), false)
    ensures GetAttributes(CommentWithAttachment(url), false) == Attributes("EPA", EpaDocket, Some(EpaDocument))
  {
    CommentFields(url);
    DataFields(CommentWithAttachment(url), EpaDocument, "comments", "EPA");
    ExampleParseDocumentId();
  }

  /** The comment can be read by `get_attachment_json_paths`, its one URL is
      the given one, and it resolves to agency EPA and docket EPA-2020-0001. */
  lemma CommentWithAttachmentFields(url: string)
    ensures var record := CommentWithAttachment(url);
      && AttachmentsReadable(record)
      && FileUrls(record.fields["included"].items) == [url]
      && GetAttributes(record, false) == Attributes("EPA", EpaDocket, Some(EpaDocument))
  {
    CommentFields(url);
    CommentAttributes(url);
    IncludedEntryUrls(url);
  }

  /** The last segment of the URL is the file name. */
  lemma FileUrlName()
    ensures LastSegment(FileUrl, '/') == "file1.pdf"
  {
    assert FileUrl == "https://host/path" + ['/'] + "file1.pdf";
    LastSegmentAfterSep("https://host/path", '/', "file1.pdf");
  }

  /** The attachment template filled in for `file1.pdf` on EPA-2020-0001-0001. */
  lemma AttachmentPathText()
    ensures BinaryPath("EPA", EpaDocket, EpaDocument + "_" + "file1.pdf")
            == "/EPA/EPA-2020-0001" + "/binary-EPA-2020-0001"
               + "/comments_attachments/" + "EPA-2020-0001-0001_file1.pdf"
  {
    BinaryHeadText();
    AttachmentNameText();
  }

  /** The attachment path of a URL for resolved attributes, given the URL's
      last segment. */
  lemma AttachmentPathOfName(at: Attributes, url: string, name: string)
    requires LastSegment(url, '/') == name
    ensures AttachmentPathFor(at, url) == BinaryPath(at.agencyId, at.docketId, at.itemId.GetOr(Unknown) + "_" + name)
  {
  }

  /** The attachment path of `file1.pdf` on comment EPA-2020-0001-0001: the
      comment's one URL gives one path, named after the comment and the file. */
  lemma ExampleAttachmentPath()
    ensures var record := CommentWithAttachment(FileUrl);
      && AttachmentsReadable(record)
      && FileUrls(record.fields["included"].items) == [FileUrl]
      && AttachmentPathFor(GetAttributes(record, false), FileUrl)
         == "/EPA/EPA-2020-0001" + "/binary-EPA-2020-0001"
            + "/comments_attachments/" + "EPA-2020-0001-0001_file1.pdf"
  {
    var at := Attributes("EPA", EpaDocket, Some(EpaDocument));
    CommentWithAttachmentFields(FileUrl);
    FileUrlName();
    AttachmentPathOfName(at, FileUrl, "file1.pdf");
    AttachmentPathText();
  }

  /** `get_attachment_json_paths` on that comment returns that one path. */
  method ExampleAttachmentJsonPaths() returns (paths: seq<string>)
    ensures paths == ["/EPA/EPA-2020-0001" + "/binary-EPA-2020-0001"
                      + "/comments_attachments/" + "EPA-2020-0001-0001_file1.pdf"]
  {
    ExampleAttachmentPath();
    paths := GetAttachmentJsonPaths(CommentWithAttachment(FileUrl));
  }

  /** The agency and docket folders of EPA-2020-0001, then its text folder. */
  lemma TextHeadText()
    ensures "/" + "EPA" + "/" + EpaDocket + "/" + "text" + "-" + EpaDocket
            == "/EPA/EPA-2020-0001" + "/text-EPA-2020-0001"
  {
    EpaHeadText();
    assert "/" + "text" + "-" == "/text-";
    EpaTextFolderText();
  }

  /** The file name of the extracted text of `file1.pdf` on EPA-2020-0001-0001. */
  lemma ExtractedNameText()
    ensures EpaDocument + "_" + "file1_extracted.txt" == "EPA-2020-0001-0001_file1_extracted.txt"
  {
  }

  /** The pdfminer folder between its slashes. */
  lemma PdfminerFolderText()
    ensures "/" + "comments_extracted_text/pdfminer" + "/" == "/comments_extracted_text/pdfminer/"
  {
  }

  /** A flat path regrouped around its folder. */
  lemma RegroupFolder(head: string, folder: string, file: string)
    ensures head + "/" + folder + "/" + file == head + ("/" + folder + "/") + file
  {
  }

  /** The extracted text of a comment's PDF attachment lands under the
      docket's text folder, with `_extracted.txt` in place of `.pdf`. */
  lemma ExampleExtractionPath()
    ensures MakeAttachmentSavePath(BinaryPath("EPA", EpaDocket, EpaDocument + "_" + "file1.pdf"))
            == "/EPA/EPA-2020-0001" + "/text-EPA-2020-0001"
               + "/comments_extracted_text/pdfminer/"
               + "EPA-2020-0001-0001_file1_extracted.txt"
  {
    var folder := "comments_extracted_text/pdfminer";
    var file := EpaDocument + "_" + ReplaceAll("file1.pdf", ".pdf", "_extracted.txt");
    ExampleIdsArePlain();
    ExtractionPathOfAttachment("EPA", EpaDocket, EpaDocument, "file1.pdf");
    ExamplePdfName();
    ExtractedNameText();
    StoragePathFlat("EPA", EpaDocket, "text", folder, file);
    TextHeadText();
    PdfminerFolderText();
    RegroupFolder("/" + "EPA" + "/" + EpaDocket + "/" + "text" + "-" + EpaDocket, folder, file);
  }

  /** The file part of the comment path of EPA-2020-0001-0001. */
  lemma CommentTailText()
    ensures "/" + "comments" + "/" + (EpaDocument + ".json") == "/comments/" + "EPA-2020-0001-0001.json"
  {
    assert "/" + "comments" + "/" == "/comments/";
  }

  /** The comment template filled in for EPA-2020-0001-0001. */
  lemma CommentPathText()
    ensures TextPath("EPA", EpaDocket, "comments", EpaDocument)
            == "/EPA/EPA-2020-0001" + "/text-EPA-2020-0001" + "/comments/" + "EPA-2020-0001-0001.json"
  {
    EpaHeadText();
    EpaTextFolderText();
    CommentTailText();
    TextPathFrom("EPA", EpaDocket, "comments", EpaDocument,
                 "/EPA/EPA-2020-0001", "/text-EPA-2020-0001", "/comments/" + "EPA-2020-0001-0001.json");
  }

  /** The comment with the attachment is itself filed in the `comments`
      folder of the docket its id names. */
  lemma ExampleCommentPath()
    ensures PathReadable(CommentWithAttachment(FileUrl))
    ensures GetPath(CommentWithAttachment(FileUrl))
            == Some("/EPA/EPA-2020-0001" + "/text-EPA-2020-0001" + "/comments/" + "EPA-2020-0001-0001.json")
  {
    var record := CommentWithAttachment(FileUrl);
    CommentFields(FileUrl);
    DataFields(record, EpaDocument, "comments", "EPA");
    CommentAttributes(FileUrl);
    assert KindOf(TypeOf(record)) == Some(Comment);
    assert GetPath(record) == Some(GetCommentJsonPath(record));
    assert GetCommentJsonPath(record) == TextPath("EPA", EpaDocket, "comments", EpaDocument);
    CommentPathText();
  }

  /** A record without `data`, and one whose `data` is the empty list, both
      get the sentinel path. */
  lemma ExampleNoDataPath()
    ensures GetPath(JObj(map[])) == Some("/unknown/unknown.json")
    ensures GetPath(JObj(map["data" := JArr([])])) == Some("/unknown/unknown.json")
  {
  }

  /** The nested-key read on the docket record: the agency is found, the
      missing `docketId` gives the default. */
  method ExampleNestedKeys() returns (agency: Json, docketId: Json)
    ensures agency == JStr("EPA") && docketId == JNull
  {
    var record := JObj(map["data" := Data(EpaDocket, "dockets", "EPA")]);
    DataFields(record, EpaDocket, "dockets", "EPA");
    agency := GetNestedKeysInJson(record, AgencyKeys, JNull);
    docketId := GetNestedKeysInJson(record, DocketKeys, JNull);
  }
}

=== FILE: path_generator.dfy ===
/**
 The path generator: maps a parsed regulations.gov record (docket, document
 or comment) to the rooted, slash-separated path where it is stored, lists the
 storage paths of a record's binary attachments, and derives the path of the
 text extracted from an attachment.
 */
module PathGenerator {
  import opened Wrappers
  import opened Json
  import opened Strings
  import opened Replace

  /** The folder name used for any identifier the record does not supply. */
  const Unknown: string := "unknown"

  /** The path given to a record without data. */
  const UnknownPath: string := "/unknown/unknown.json"

  /** Key paths of the three identifiers inside a record. */
  const IdKeys: seq<string> := ["data", "id"]
  const AgencyKeys: seq<string> := ["data", "attributes", "agencyId"]
  const DocketKeys: seq<string> := ["data", "attributes", "docketId"]

  /** The three record types regulations.gov serves. */
  datatype Kind = Docket | Document | Comment

  /** The record type a `data.type` value names, if it is one of the three. */
  function KindOf(t: Json): Option<Kind> {
    if t == JStr("comments") then Some(Comment)
    else if t == JStr("dockets") then Some(Docket)
    else if t == JStr("documents") then Some(Document)
    else None
  }

  /** The folder under `text-<docketId>` that holds a record of this kind. */
  function Folder(k: Kind): string {
    match k
    case Docket => "docket"
    case Document => "documents"
    case Comment => "comments"
  }

  /** A value usable as an identifier: a string, or null for "absent". */
  predicate StrOrNull(v: Json) {
    v.JStr? || v.JNull?
  }

  /** A string value as a Python `str`, null as `None`. */
  function AsId(v: Json): Option<string>
    requires StrOrNull(v)
  {
    if v.JStr? then Some(v.str) else None
  }

  /** The identifier stored at a key path of a record: None when a key on the
      path is missing or the value there is null. */
  function FieldAt(record: Json, keys: seq<string>): Option<string> {
    match Reach(record, keys)
    case Some(JStr(s)) => Some(s)
    case _ => None
  }

  // ---------------------------------------------------------------------------
  // Docket-id parsing and attribute extraction

  /** `parse_docket_id`: a document or comment id is its docket id followed by
      `-<sequence>`, so drop the last `-`-separated segment; `None` gives "unknown". */
  function ParseDocketId(itemId: Option<string>): string {
    match itemId
    case None => Unknown
    case Some(id) =>
      var segments := Split(id, '-');
      Join(segments[..|segments| - 1], '-')
  }

  /** A document or comment id `<docketId>-<sequence>`, with a hyphen-free
      sequence part, parses back to its docket id. */
  lemma ParseDocketIdStripsSequence(docketId: string, sequence: string)
    requires '-' !in sequence
    ensures ParseDocketId(Some(docketId + "-" + sequence)) == docketId
  {
    var id := docketId + "-" + sequence;
    SplitAppend(docketId, '-', sequence);
    SplitNoSep(sequence, '-');
    var segments := Split(id, '-');
    assert segments == Split(docketId, '-') + [sequence];
    assert segments[..|segments| - 1] == Split(docketId, '-');
    JoinSplit(docketId, '-');
  }

  /** What ParseDocketId makes of any id: the text before its last hyphen, or
      the empty string when it has none. */
  lemma ParseDocketIdBeforeLastHyphen(id: string)
    ensures var r := ParseDocketId(Some(id));
      && ('-' !in id ==> r == "")
      && ('-' in id ==> |r| < |id| && id[..|r|] == r && id[|r|] == '-' && '-' !in id[|r| + 1..])
  {
    if '-' in id {
      var d, t := LastSepDecomposition(id, '-');
      ParseDocketIdStripsSequence(d, t);
      assert id[..|d|] == d;
      assert id[|d| + 1..] == t;
    } else {
      SplitNoSep(id, '-');
    }
  }

  /** The agency id, docket id and item id of a record, each "unknown" when the
      record lacks it; the item id is None for a docket. */
  datatype Attributes = Attributes(agencyId: string, docketId: string, itemId: Option<string>)

  /** What `get_attributes` needs of a record to run without raising: every
      `in` test on the way to the three fields is made on an object, and the
      fields it reads hold strings or null. */
  predicate AttributesReadable(record: Json, isDocket: bool) {
    && Walkable(record, IdKeys) && StrOrNull(Lookup(record, IdKeys, JNull))
    && Walkable(record, AgencyKeys) && StrOrNull(Lookup(record, AgencyKeys, JNull))
    && (!isDocket ==> Walkable(record, DocketKeys) && StrOrNull(Lookup(record, DocketKeys, JNull)))
  }

  /** `get_attributes`: read `data.id` and `data.attributes.agencyId`; a docket's
      own id is its docket id, other records read `data.attributes.docketId`
      and fall back to parsing their id; anything still missing is "unknown". */
  function GetAttributes(record: Json, isDocket: bool): (r: Attributes)
    requires AttributesReadable(record, isDocket)
    ensures r.agencyId == FieldAt(record, AgencyKeys).GetOr(Unknown)
    ensures isDocket <==> r.itemId.None?
    ensures isDocket ==> r.docketId == FieldAt(record, IdKeys).GetOr(Unknown)
    ensures !isDocket ==> r.itemId == Some(FieldAt(record, IdKeys).GetOr(Unknown))
    ensures !isDocket && FieldAt(record, DocketKeys).Some? ==>
              r.docketId == FieldAt(record, DocketKeys).value
    ensures !isDocket && FieldAt(record, DocketKeys).None? ==>
              r.docketId == ParseDocketId(FieldAt(record, IdKeys))
  {
    var itemId := AsId(Lookup(record, IdKeys, JNull));
    var agencyId := AsId(Lookup(record, AgencyKeys, JNull));
    if isDocket then
      Attributes(agencyId.GetOr(Unknown), itemId.GetOr(Unknown), None)
    else
      var docketId := AsId(Lookup(record, DocketKeys, JNull));
      var resolved := if docketId.None? then Some(ParseDocketId(itemId)) else docketId;
      Attributes(agencyId.GetOr(Unknown), resolved.GetOr(Unknown), Some(itemId.GetOr(Unknown)))
  }

  /** The docket id a document or comment resolves to: its `docketId` field
      when that holds a string, otherwise the one parsed from its own id. */
  function ResolvedDocketId(record: Json): string {
    match FieldAt(record, DocketKeys)
    case Some(d) => d
    case None => ParseDocketId(FieldAt(record, IdKeys))
  }

  /** The fallback chain of `get_attributes`: a document or comment without a
      `docketId` field gets the docket id its own id was formed from. */
  lemma DocketIdFromItemId(record: Json, docketId: string, sequence: string)
    requires AttributesReadable(record, false)
    requires FieldAt(record, DocketKeys) == None
    requires FieldAt(record, IdKeys) == Some(docketId + "-" + sequence) && '-' !in sequence
    ensures GetAttributes(record, false).docketId == docketId
  {
    ParseDocketIdStripsSequence(docketId, sequence);
  }

  // ---------------------------------------------------------------------------
  // Record paths

  /** The template shared by all three record paths:
      `/{agency}/{docket}/text-{docket}/{folder}/{name}.json`. */
  function TextPath(agencyId: string, docketId: string, folder: string, name: string): string {
    "/" + agencyId + "/" + docketId + "/text-" + docketId + "/" + folder + "/" + name + ".json"
  }

  /** `get_docket_json_path`: a docket is filed under its own id. */
  function GetDocketJsonPath(record: Json): (r: string)
    requires AttributesReadable(record, true)
    ensures var id := FieldAt(record, IdKeys).GetOr(Unknown);
      r == TextPath(FieldAt(record, AgencyKeys).GetOr(Unknown), id, "docket", id)
  {
    var at := GetAttributes(record, true);
    TextPath(at.agencyId, at.docketId, Folder(Docket), at.docketId)
  }

  /** `get_document_json_path`. */
  function GetDocumentJsonPath(record: Json): (r: string)
    requires AttributesReadable(record, false)
    ensures r == TextPath(FieldAt(record, AgencyKeys).GetOr(Unknown), ResolvedDocketId(record),
                          "documents", FieldAt(record, IdKeys).GetOr(Unknown))
  {
    var at := GetAttributes(record, false);
    TextPath(at.agencyId, at.docketId, Folder(Document), at.itemId.value)
  }

  /** `get_comment_json_path`. */
  function GetCommentJsonPath(record: Json): (r: string)
    requires AttributesReadable(record, false)
    ensures r == TextPath(FieldAt(record, AgencyKeys).GetOr(Unknown), ResolvedDocketId(record),
                          "comments", FieldAt(record, IdKeys).GetOr(Unknown))
  {
    var at := GetAttributes(record, false);
    TextPath(at.agencyId, at.docketId, Folder(Comment), at.itemId.value)
  }

  /** The record carries no data: `data` is missing or is the empty list. */
  predicate NoData(record: Json)
    requires record.JObj?
  {
    "data" !in record.fields || record.fields["data"] == JArr([])
  }

  /** The `data.type` value of a record that has data. */
  function TypeOf(record: Json): Json
    requires record.JObj? && !NoData(record)
    requires record.fields["data"].JObj? && "type" in record.fields["data"].fields
  {
    record.fields["data"].fields["type"]
  }

  /** What `get_path` needs of a record to run without raising: it is an
      object; when it has data, `data` is an object with a `type`, and a
      record of a known type can have its attributes read. */
  predicate PathReadable(record: Json) {
    && record.JObj?
    && (!NoData(record) ==>
          && record.fields["data"].JObj?
          && "type" in record.fields["data"].fields
          && match KindOf(TypeOf(record))
             case None => true
             case Some(k) => AttributesReadable(record, k == Docket))
  }

  /** The string ends with the given suffix. */
  predicate EndsWith(s: string, suffix: string) {
    |suffix| <= |s| && s[|s| - |suffix|..] == suffix
  }

  /** `get_path`: the sentinel path for a record without data, otherwise the
      path for its type; a type other than the three gives no path (`None`). */
  function GetPath(record: Json): (r: Option<string>)
    requires PathReadable(record)
    ensures r == Some(UnknownPath) <==> NoData(record)
    ensures r.None? <==> !NoData(record) && KindOf(TypeOf(record)).None?
    ensures r.Some? ==> |r.value| > 0 && r.value[0] == '/' && EndsWith(r.value, ".json")
  {
    if NoData(record) then Some(UnknownPath)
    else
      match KindOf(TypeOf(record))
      case Some(Comment) =>
        var at := GetAttributes(record, false);
        TextPathIsNotUnknown(at.agencyId, at.docketId, "comments", at.itemId.value);
        Some(GetCommentJsonPath(record))
      case Some(Docket) =>
        var at := GetAttributes(record, true);
        TextPathIsNotUnknown(at.agencyId, at.docketId, "docket", at.docketId);
        Some(GetDocketJsonPath(record))
      case Some(Document) =>
        var at := GetAttributes(record, false);
        TextPathIsNotUnknown(at.agencyId, at.docketId, "documents", at.itemId.value);
        Some(GetDocumentJsonPath(record))
      case None => None
  }

  /** A path built from the record template holds at least five slashes, the
      sentinel path two, so no record path is the sentinel. */
  lemma TextPathIsNotUnknown(agencyId: string, docketId: string, folder: string, name: string)
    ensures var p := TextPath(agencyId, docketId, folder, name);
      p != UnknownPath && |p| > 0 && p[0] == '/' && EndsWith(p, ".json")
  {
    TextPathSlashes(agencyId, docketId, folder, name);
    UnknownPathSlashes();
    TextPathEnds(agencyId, docketId, folder, name);
  }

  lemma TextPathSlashes(agencyId: string, docketId: string, folder: string, name: string)
    ensures multiset(TextPath(agencyId, docketId, folder, name))['/'] >= 5
  {
  }

  lemma UnknownPathSlashes()
    ensures multiset(UnknownPath)['/'] == 2
  {
    assert UnknownPath == "/" + Unknown + "/" + (Unknown + ".json");
    TwoSlashes(Unknown, Unknown + ".json");
  }

  lemma TwoSlashes(a: string, b: string)
    requires '/' !in a && '/' !in b
    ensures multiset("/" + a + "/" + b)['/'] == 2
  {
    assert multiset(a)['/'] == 0 && multiset(b)['/'] == 0;
  }

  lemma TextPathEnds(agencyId: string, docketId: string, folder: string, name: string)
    ensures var p := TextPath(agencyId, docketId, folder, name);
      |p| > 0 && p[0] == '/' && EndsWith(p, ".json")
  {
    var p := TextPath(agencyId, docketId, folder, name);
    var front := "/" + agencyId + "/" + docketId + "/text-" + docketId + "/" + folder + "/" + name;
    assert p == front + ".json";
    assert p[|p| - 5..] == ".json";
  }

  // ---------------------------------------------------------------------------
  // Attachment paths

  /** `/{agency}/{docket}/binary-{docket}/comments_attachments/{attachmentId}`. */
  function BinaryPath(agencyId: string, docketId: string, attachmentId: string): string {
    "/" + agencyId + "/" + docketId + "/binary-" + docketId + "/comments_attachments/" + attachmentId
  }

  /** The attachment path of one file URL: the item id, `_`, and the URL's
      last segment name the file. */
  function AttachmentPathFor(at: Attributes, url: string): string {
    BinaryPath(at.agencyId, at.docketId, at.itemId.GetOr(Unknown) + "_" + LastSegment(url, '/'))
  }

  /** The `fileFormats` test of the loop: truthy, not the string "null", not None. */
  predicate ListsFormats(fileFormats: Json) {
    Truthy(fileFormats) && fileFormats != JStr("null") && fileFormats != JNull
  }

  /** A format object that carries a file URL. */
  predicate HasUrl(format: Json) {
    format.JObj? && "fileUrl" in format.fields && format.fields["fileUrl"].JStr?
  }

  /** The file URL of a format object that has one. */
  function UrlOf(format: Json): string {
    if HasUrl(format) then format.fields["fileUrl"].str else ""
  }

  /** The `fileFormats` value of an `included` entry (null when it has none). */
  function FileFormatsOf(entry: Json): Json {
    if entry.JObj? && "attributes" in entry.fields && entry.fields["attributes"].JObj?
       && "fileFormats" in entry.fields["attributes"].fields
    then entry.fields["attributes"].fields["fileFormats"]
    else JNull
  }

  /** The file URLs of a list of format objects, in order, skipping objects without one. */
  function FormatUrls(formats: seq<Json>): (urls: seq<string>)
    ensures |urls| <= |formats|
    decreases |formats|
  {
    if |formats| == 0 then []
    else
      (if HasUrl(formats[0]) then [UrlOf(formats[0])] else [])
      + FormatUrls(formats[1..])
  }

  /** The file URLs one `included` entry contributes: none unless its
      `fileFormats` passes the test. */
  function EntryUrls(entry: Json): seq<string> {
    var fileFormats := FileFormatsOf(entry);
    if ListsFormats(fileFormats) && fileFormats.JArr? then FormatUrls(fileFormats.items) else []
  }

  /** All file URLs of the `included` entries: entry order first, then format order. */
  function FileUrls(included: seq<Json>): seq<string>
    decreases |included|
  {
    if |included| == 0 then [] else EntryUrls(included[0]) + FileUrls(included[1..])
  }

  /** When every format object has a URL, there is one URL per object, in order. */
  lemma {:induction false} FormatUrlsAllPresent(formats: seq<Json>)
    requires forall k :: 0 <= k < |formats| ==> HasUrl(formats[k])
    ensures |FormatUrls(formats)| == |formats|
    ensures forall k :: 0 <= k < |formats| ==> FormatUrls(formats)[k] == UrlOf(formats[k])
    decreases |formats|
  {
    if |formats| > 0 {
      FormatUrlsAllPresent(formats[1..]);
      var urls := FormatUrls(formats);
      assert urls == [UrlOf(formats[0])] + FormatUrls(formats[1..]);
      forall k | 1 <= k < |formats|
        ensures urls[k] == UrlOf(formats[k])
      {
        assert urls[k] == FormatUrls(formats[1..])[k - 1];
        assert formats[1..][k - 1] == formats[k];
      }
    }
  }

  /** Format objects without a URL contribute nothing. */
  lemma {:induction false} FormatUrlsAllAbsent(formats: seq<Json>)
    requires forall k :: 0 <= k < |formats| ==> !HasUrl(formats[k])
    ensures FormatUrls(formats) == []
    decreases |formats|
  {
    if |formats| > 0 {
      assert !HasUrl(formats[0]);
      FormatUrlsAllAbsent(formats[1..]);
    }
  }

  /** Format lists concatenate into URL lists: order is kept. */
  lemma {:induction false} FormatUrlsAppend(a: seq<Json>, b: seq<Json>)
    ensures FormatUrls(a + b) == FormatUrls(a) + FormatUrls(b)
    decreases |a|
  {
    if |a| == 0 {
      assert a + b == b;
    } else {
      assert (a + b)[0] == a[0];
      assert (a + b)[1..] == a[1..] + b;
      FormatUrlsAppend(a[1..], b);
    }
  }

  /** Included lists concatenate into URL lists: order is kept. */
  lemma {:induction false} FileUrlsAppend(a: seq<Json>, b: seq<Json>)
    ensures FileUrls(a + b) == FileUrls(a) + FileUrls(b)
    decreases |a|
  {
    if |a| == 0 {
      assert a + b == b;
    } else {
      assert (a + b)[0] == a[0];
      assert (a + b)[1..] == a[1..] + b;
      FileUrlsAppend(a[1..], b);
    }
  }

  /** An entry whose `fileFormats` fails the test is skipped without
      disturbing the order of the others. */
  lemma SkippedEntryContributesNothing(before: seq<Json>, entry: Json, after: seq<Json>)
    requires !ListsFormats(FileFormatsOf(entry))
    ensures FileUrls(before + [entry] + after) == FileUrls(before + after)
  {
    FileUrlsAppend(before + [entry], after);
    FileUrlsAppend(before, [entry]);
    FileUrlsAppend(before, after);
  }

  /** A format object as the inner loop needs it: a dict whose `fileUrl`, if
      any, is a string. */
  predicate FormatReadable(format: Json) {
    format.JObj? && ("fileUrl" in format.fields ==> format.fields["fileUrl"].JStr?)
  }

  /** An `included` entry as the outer loop needs it: a dict with an
      `attributes` dict holding `fileFormats`, which, when it passes the test,
      is a list of readable format objects. */
  predicate EntryReadable(entry: Json) {
    && entry.JObj? && "attributes" in entry.fields && entry.fields["attributes"].JObj?
    && "fileFormats" in entry.fields["attributes"].fields
    && var fileFormats := entry.fields["attributes"].fields["fileFormats"];
       ListsFormats(fileFormats) ==>
         fileFormats.JArr? && forall k :: 0 <= k < |fileFormats.items| ==> FormatReadable(fileFormats.items[k])
  }

  /** What `get_attachment_json_paths` needs of a record to run without raising. */
  predicate AttachmentsReadable(record: Json) {
    && record.JObj?
    && AttributesReadable(record, false)
    && "included" in record.fields && record.fields["included"].JArr?
    && forall k :: 0 <= k < |record.fields["included"].items| ==>
         EntryReadable(record.fields["included"].items[k])
  }

  /** The attachment paths of a list of file URLs, one per URL, in order. */
  function Render(at: Attributes, urls: seq<string>): seq<string> {
    seq(|urls|, k requires 0 <= k < |urls| => AttachmentPathFor(at, urls[k]))
  }

  /** Rendering a concatenation renders each part. */
  lemma RenderAppend(at: Attributes, a: seq<string>, b: seq<string>)
    ensures Render(at, a + b) == Render(at, a) + Render(at, b)
  {
  }

  /** One more entry of `included` contributes that entry's URLs. */
  lemma FileUrlsStep(included: seq<Json>, n: nat)
    requires n < |included|
    ensures FileUrls(included[..n + 1]) == FileUrls(included[..n]) + EntryUrls(included[n])
  {
    FileUrlsAppend(included[..n], [included[n]]);
    assert included[..n + 1] == included[..n] + [included[n]];
    assert FileUrls([included[n]]) == EntryUrls(included[n]) + FileUrls([]);
  }

  /** One entry of `included` adds the rendered URLs of that entry. */
  lemma RenderEntryStep(at: Attributes, included: seq<Json>, n: nat)
    requires n < |included|
    ensures Render(at, FileUrls(included[..n + 1]))
            == Render(at, FileUrls(included[..n])) + Render(at, EntryUrls(included[n]))
  {
    FileUrlsStep(included, n);
    RenderAppend(at, FileUrls(included[..n]), EntryUrls(included[n]));
  }

  /** One more format object contributes its URL, if it has one. */
  lemma FormatUrlsStep(formats: seq<Json>, m: nat)
    requires m < |formats|
    ensures FormatUrls(formats[..m + 1]) == FormatUrls(formats[..m]) + FormatUrls([formats[m]])
  {
    FormatUrlsAppend(formats[..m], [formats[m]]);
    assert formats[..m + 1] == formats[..m] + [formats[m]];
  }

  /** One format object adds the rendered URL of that object. */
  lemma RenderFormatStep(at: Attributes, formats: seq<Json>, m: nat)
    requires m < |formats|
    ensures Render(at, FormatUrls(formats[..m + 1]))
            == Render(at, FormatUrls(formats[..m])) + Render(at, FormatUrls([formats[m]]))
  {
    FormatUrlsStep(formats, m);
    RenderAppend(at, FormatUrls(formats[..m]), FormatUrls([formats[m]]));
  }

  /** `get_attachment_json_paths`, loop for loop: one path per format object
      with a `fileUrl`, in `included` order and then `fileFormats` order. */
  method GetAttachmentJsonPaths(record: Json) returns (paths: seq<string>)
    requires AttachmentsReadable(record)
    ensures var urls := FileUrls(record.fields["included"].items);
      && |paths| == |urls|
      && forall k :: 0 <= k < |urls| ==> paths[k] == AttachmentPathFor(GetAttributes(record, false), urls[k])
  {
    var at := GetAttributes(record, false);
    var included := record.fields["included"].items;
    paths := [];
    for n := 0 to |included|
      invariant paths == Render(at, FileUrls(included[..n]))
    {
      var entry := included[n];
      RenderEntryStep(at, included, n);
      assert EntryReadable(entry);
      var fileFormats := entry.fields["attributes"].fields["fileFormats"];
      if ListsFormats(fileFormats) {
        paths := AppendFormatPaths(at, fileFormats.items, paths);
      } else {
        assert EntryUrls(entry) == [];
      }
    }
    assert included[..|included|] == included;
    assert paths == Render(at, FileUrls(included));
  }

  /** The inner loop of `get_attachment_json_paths`: append the path of each
      format object that has a `fileUrl`, in order. */
  method AppendFormatPaths(at: Attributes, formats: seq<Json>, paths: seq<string>) returns (out: seq<string>)
    requires at.itemId.Some?
    requires forall k :: 0 <= k < |formats| ==> FormatReadable(formats[k])
    ensures out == paths + Render(at, FormatUrls(formats))
  {
    out := paths;
    for m := 0 to |formats|
      invariant out == paths + Render(at, FormatUrls(formats[..m]))
    {
      var format := formats[m];
      RenderFormatStep(at, formats, m);
      assert FormatReadable(format);
      if "fileUrl" in format.fields {
        var attachmentName := LastSegment(format.fields["fileUrl"].str, '/');
        var attachmentId := at.itemId.value + "_" + attachmentName;
        out := out + [BinaryPath(at.agencyId, at.docketId, attachmentId)];
        assert FormatUrls([format]) == [UrlOf(format)];
        assert Render(at, [UrlOf(format)]) == [AttachmentPathFor(at, UrlOf(format))];
      } else {
        assert FormatUrls([format]) == [];
      }
    }
    assert formats[..|formats|] == formats;
  }

  // ---------------------------------------------------------------------------
  // Extracted-text paths

  /** The path holds none of the four patterns the extraction path rewrites. */
  predicate PatternFree(path: string) {
    && !Contains(path, "binary")
    && !Contains(path, "comments_attachments")
    && !Contains(path, "documents_attachments")
    && !Contains(path, ".pdf")
  }

  /** `make_attachment_save_path`: every `binary` becomes `text`, the
      attachments folder becomes `<kind>_extracted_text/pdfminer` (comments
      when the path mentions "comments", documents otherwise), and every `.pdf`
      becomes `_extracted.txt`. */
  function MakeAttachmentSavePath(path: string): (r: string)
    ensures !Contains(r, "binary")
    ensures !Contains(r, ".pdf")
    ensures PatternFree(path) ==> r == path
  {
    var texted := ReplaceAll(path, "binary", "text");
    var moved :=
      if Contains(path, "comments")
      then ReplaceAll(texted, "comments_attachments", "comments_extracted_text/pdfminer")
      else ReplaceAll(texted, "documents_attachments", "documents_extracted_text/pdfminer");
    var r := ReplaceAll(moved, ".pdf", "_extracted.txt");
    SavePathSteps(path, texted, moved, r);
    r
  }

  /** The three replacements of MakeAttachmentSavePath remove `binary` and
      `.pdf` for good, and change nothing in a path without the patterns. */
  lemma SavePathSteps(path: string, texted: string, moved: string, r: string)
    requires texted == ReplaceAll(path, "binary", "text")
    requires moved == ReplaceAll(texted, "comments_attachments", "comments_extracted_text/pdfminer")
          || moved == ReplaceAll(texted, "documents_attachments", "documents_extracted_text/pdfminer")
    requires r == ReplaceAll(moved, ".pdf", "_extracted.txt")
    ensures !Contains(r, "binary") && !Contains(r, ".pdf")
    ensures PatternFree(path) ==> r == path
  {
    SaveWordsUnaligned();
    if moved == ReplaceAll(texted, "comments_attachments", "comments_extracted_text/pdfminer") {
      ChainAvoidsFirst(path, "binary", "text", "comments_attachments", "comments_extracted_text/pdfminer",
                       ".pdf", "_extracted.txt", texted, moved, r);
      if PatternFree(path) {
        ChainIdentity(path, "binary", "text", "comments_attachments", "comments_extracted_text/pdfminer",
                      ".pdf", "_extracted.txt", texted, moved, r);
      }
    } else {
      ChainAvoidsFirst(path, "binary", "text", "documents_attachments", "documents_extracted_text/pdfminer",
                       ".pdf", "_extracted.txt", texted, moved, r);
      if PatternFree(path) {
        ChainIdentity(path, "binary", "text", "documents_attachments", "documents_extracted_text/pdfminer",
                      ".pdf", "_extracted.txt", texted, moved, r);
      }
    }
    ReplaceAllAvoids(moved, ".pdf", "_extracted.txt", ".pdf");
  }

  /** No replacement text of MakeAttachmentSavePath can begin or hide an
      occurrence of `binary`, and `_extracted.txt` none of `.pdf`. */
  lemma SaveWordsUnaligned()
    ensures 't' !in "binary" && Unaligned("text", "binary")
    ensures 'c' !in "binary" && Unaligned("comments_extracted_text/pdfminer", "binary")
    ensures 'd' !in "binary" && Unaligned("documents_extracted_text/pdfminer", "binary")
    ensures '_' !in "binary" && Unaligned("_extracted.txt", "binary")
    ensures '_' !in ".pdf" && Unaligned("_extracted.txt", ".pdf")
  {
    FirstCharMissing("text", "binary");
    FirstCharMissing("comments_extracted_text/pdfminer", "binary");
    FirstCharMissing("documents_extracted_text/pdfminer", "binary");
    FirstCharMissing("_extracted.txt", "binary");
    ExtractedUnalignedWithPdf();
  }

  lemma ExtractedUnalignedWithPdf()
    ensures Unaligned("_extracted.txt", ".pdf")
  {
    assert "_extracted.txt"[11] != 'p';
  }

  /** Three replacements in a row, the first of which removes `x`, leave no
      `x` behind when no replacement text can produce one. */
  lemma ChainAvoidsFirst(path: string, p1: string, r1: string, p2: string, r2: string,
                         p3: string, r3: string, texted: string, moved: string, r: string)
    requires |p1| > 0 && |r1| > 0 && |p2| > 0 && |r2| > 0 && |p3| > 0 && |r3| > 0
    requires r1[0] !in p1 && Unaligned(r1, p1)
    requires r2[0] !in p1 && Unaligned(r2, p1)
    requires r3[0] !in p1 && Unaligned(r3, p1)
    requires texted == ReplaceAll(path, p1, r1)
    requires moved == ReplaceAll(texted, p2, r2)
    requires r == ReplaceAll(moved, p3, r3)
    ensures !Contains(r, p1)
  {
    ReplaceAllAvoids(path, p1, r1, p1);
    ReplaceAllAvoids(texted, p2, r2, p1);
    ReplaceAllAvoids(moved, p3, r3, p1);
  }

  /** Three replacements in a row change nothing in a string holding none of
      their patterns. */
  lemma ChainIdentity(path: string, p1: string, r1: string, p2: string, r2: string,
                      p3: string, r3: string, texted: string, moved: string, r: string)
    requires |p1| > 0 && |p2| > 0 && |p3| > 0
    requires !Contains(path, p1) && !Contains(path, p2) && !Contains(path, p3)
    requires texted == ReplaceAll(path, p1, r1)
    requires moved == ReplaceAll(texted, p2, r2)
    requires r == ReplaceAll(moved, p3, r3)
    ensures r == path
  {
    ReplaceAllIdentity(path, p1, r1);
    ReplaceAllIdentity(path, p2, r2);
    ReplaceAllIdentity(path, p3, r3);
  }
}

=== FILE: path_properties.dfy ===
/**
 Properties of the generated paths that relate several operations. For
 identifiers without `/`, a record path splits back into agency, docket,
 `text-<docket>`, folder and `<id>.json`, and equal paths mean equal agency,
 docket, folder and id; with a `/` in an identifier two paths can coincide.
 The extracted-text path of a generated attachment path is the matching file
 under `text-<docketId>`.
 */
module PathProperties {
  import opened Wrappers
  import opened Json
  import opened Strings
  import opened Replace
  import opened PathGenerator

  /** Dispatch on `data.type`: dockets, documents and comments each get their
      own template, filled from the record's fields. */
  lemma GetPathByType(record: Json)
    requires PathReadable(record) && !NoData(record)
    ensures var id := FieldAt(record, IdKeys).GetOr(Unknown);
            var agency := FieldAt(record, AgencyKeys).GetOr(Unknown);
      && (TypeOf(record) == JStr("dockets") ==>
            GetPath(record) == Some(TextPath(agency, id, "docket", id)))
      && (TypeOf(record) == JStr("documents") ==>
            GetPath(record) == Some(TextPath(agency, ResolvedDocketId(record), "documents", id)))
      && (TypeOf(record) == JStr("comments") ==>
            GetPath(record) == Some(TextPath(agency, ResolvedDocketId(record), "comments", id)))
  {
  }

  /** Splitting a record path on `/` recovers its identifiers, provided none
      of them contains a slash. */
  lemma TextPathSegments(agencyId: string, docketId: string, folder: string, name: string)
    requires '/' !in agencyId && '/' !in docketId && '/' !in folder && '/' !in name
    ensures Split(TextPath(agencyId, docketId, folder, name), '/')
            == ["", agencyId, docketId, "text-" + docketId, folder, name + ".json"]
  {
    var p1 := "" + "/" + agencyId;
    var p2 := p1 + "/" + docketId;
    var p3 := p2 + "/" + ("text-" + docketId);
    var p4 := p3 + "/" + folder;
    TextPathPieces(agencyId, docketId, folder, name);
    SplitNoSep("", '/');
    SplitSnoc("", '/', agencyId);
    SplitSnoc(p1, '/', docketId);
    SplitSnoc(p2, '/', "text-" + docketId);
    SplitSnoc(p3, '/', folder);
    SplitSnoc(p4, '/', name + ".json");
  }

  /** A record path written out piece by piece. */
  lemma TextPathPieces(a: string, d: string, f: string, n: string)
    ensures TextPath(a, d, f, n)
            == "" + "/" + a + "/" + d + "/" + ("text-" + d) + "/" + f + "/" + (n + ".json")
  {
    assert "/text-" == "/" + "text-";
  }

  /** For identifiers without `/`, distinct identifiers give distinct record
      paths: a record path determines the agency, docket, folder and file name
      it was built from. Records are not distinguished beyond these four. */
  lemma TextPathInjective(a: string, d: string, f: string, n: string,
                          a': string, d': string, f': string, n': string)
    requires '/' !in a && '/' !in d && '/' !in f && '/' !in n
    requires '/' !in a' && '/' !in d' && '/' !in f' && '/' !in n'
    requires TextPath(a, d, f, n) == TextPath(a', d', f', n')
    ensures a == a' && d == d' && f == f' && n == n'
  {
    TextPathSegments(a, d, f, n);
    TextPathSegments(a', d', f', n');
    var s := ["", a, d, "text-" + d, f, n + ".json"];
    var s' := ["", a', d', "text-" + d', f', n' + ".json"];
    assert s == s';
    assert s[5] == s'[5];
    assert n == (n + ".json")[..|n|] == (n' + ".json")[..|n'|] == n';
  }

  /** The slash-free condition of `TextPathInjective` is needed: the template
      interpolates identifiers as they are, so a `/` moved from the folder to
      the id gives the same path. */
  lemma SlashCollision()
    ensures TextPath("a", "d", "f/g", "n") == TextPath("a", "d", "f", "g/n")
    ensures "f/g" != "f"
  {
  }

  /** An attachment path written out piece by piece. */
  lemma BinaryPathPieces(a: string, d: string, i: string)
    ensures BinaryPath(a, d, i)
            == "" + "/" + a + "/" + d + "/" + ("binary-" + d) + "/" + "comments_attachments" + "/" + i
  {
    assert "/binary-" == "/" + "binary-";
    assert "/comments_attachments/" == "/" + "comments_attachments" + "/";
  }

  /** The shape shared by attachment paths and extracted-text paths,
      `/{agency}/{docket}/{kind}-{docket}/{folder}/{file}`, written nested to
      the right so that a rewrite can be followed piece by piece. */
  function StoragePath(agencyId: string, docketId: string, kind: string, folder: string, file: string): string {
    "/" + (agencyId + ("/" + (docketId + ("/" + (kind + ("-" + (docketId + ("/" + (folder + ("/" + file))))))))))
  }

  /** The same path, written flat. */
  lemma StoragePathFlat(agencyId: string, docketId: string, kind: string, folder: string, file: string)
    ensures StoragePath(agencyId, docketId, kind, folder, file)
            == "/" + agencyId + "/" + docketId + "/" + kind + "-" + docketId + "/" + folder + "/" + file
  {
  }

  /** An attachment path is the storage path of kind `binary` in the
      `comments_attachments` folder. */
  lemma BinaryPathIsStoragePath(a: string, d: string, file: string)
    ensures BinaryPath(a, d, file) == StoragePath(a, d, "binary", "comments_attachments", file)
  {
    assert "/binary-" == "/" + "binary" + "-";
    assert "/comments_attachments/" == "/" + "comments_attachments" + "/";
    StoragePathFlat(a, d, "binary", "comments_attachments", file);
  }

  /** Splitting an attachment path on `/` recovers its identifiers. */
  lemma BinaryPathSegments(agencyId: string, docketId: string, attachmentId: string)
    requires '/' !in agencyId && '/' !in docketId && '/' !in attachmentId
    ensures Split(BinaryPath(agencyId, docketId, attachmentId), '/')
            == ["", agencyId, docketId, "binary-" + docketId, "comments_attachments", attachmentId]
  {
    var folder := "comments_attachments";
    var p1 := "" + "/" + agencyId;
    var p2 := p1 + "/" + docketId;
    var p3 := p2 + "/" + ("binary-" + docketId);
    var p4 := p3 + "/" + folder;
    BinaryPathPieces(agencyId, docketId, attachmentId);
    SplitNoSep("", '/');
    SplitSnoc("", '/', agencyId);
    SplitSnoc(p1, '/', docketId);
    SplitSnoc(p2, '/', "binary-" + docketId);
    SplitSnoc(p3, '/', folder);
    SplitSnoc(p4, '/', attachmentId);
  }

  /** The last segment of an attachment path is its attachment id. */
  lemma BinaryPathLastSegment(agencyId: string, docketId: string, attachmentId: string)
    requires '/' !in agencyId && '/' !in docketId && '/' !in attachmentId
    ensures LastSegment(BinaryPath(agencyId, docketId, attachmentId), '/') == attachmentId
  {
    BinaryPathSegments(agencyId, docketId, attachmentId);
  }

  /** The identifiers a path is built from hold none of the substrings the
      extraction path rewrites. */
  predicate Plain(s: string) {
    !Contains(s, "binary") && !Contains(s, "comments_attachments") && !Contains(s, ".pdf")
  }

  /** A piece without the pattern passes through unchanged when what follows
      it starts with a character the pattern lacks. */
  lemma PassPiece(x: string, rest: string, pat: string, rep: string)
    requires |pat| > 0 && !Contains(x, pat) && |rest| > 0 && rest[0] !in pat
    ensures ReplaceAll(x + rest, pat, rep) == x + ReplaceAll(rest, pat, rep)
  {
    ReplaceAllSplit(x, rest, pat, rep);
    ReplaceAllIdentity(x, pat, rep);
  }

  /** The tail `-{docket}/{folder}/{file}` of a storage path: a rewrite whose
      pattern holds neither `-` nor `/` and is absent from the docket id
      rewrites the folder and the file on their own. */
  lemma RewriteStorageTail(d: string, folder: string, file: string, pat: string, rep: string)
    requires |pat| > 0 && '/' !in pat && '-' !in pat && !Contains(d, pat)
    ensures ReplaceAll("-" + (d + ("/" + (folder + ("/" + file)))), pat, rep)
            == "-" + (d + ("/" + (ReplaceAll(folder, pat, rep) + ("/" + ReplaceAll(file, pat, rep)))))
  {
    assert pat[0] in pat;
    var t := folder + ("/" + file);
    ReplaceAllKeepsPrefix("/", file, pat, rep);
    ReplaceAllSplit(folder, "/" + file, pat, rep);
    ReplaceAllKeepsPrefix("/", t, pat, rep);
    PassPiece(d, "/" + t, pat, rep);
    ReplaceAllKeepsPrefix("-", d + ("/" + t), pat, rep);
  }

  /** The head `/{agency}/{docket}/{kind}` of a storage path: such a rewrite
      rewrites the kind on its own and leaves the ids alone. */
  lemma RewriteStorageHead(a: string, d: string, kind: string, tail: string, pat: string, rep: string)
    requires |pat| > 0 && '/' !in pat && !Contains(a, pat) && !Contains(d, pat)
    requires |tail| > 0 && tail[0] !in pat
    ensures ReplaceAll("/" + (a + ("/" + (d + ("/" + (kind + tail))))), pat, rep)
            == "/" + (a + ("/" + (d + ("/" + (ReplaceAll(kind, pat, rep) + ReplaceAll(tail, pat, rep))))))
  {
    assert pat[0] in pat;
    var t3 := "/" + (kind + tail);
    var t1 := "/" + (d + t3);
    ReplaceAllSplit(kind, tail, pat, rep);
    ReplaceAllKeepsPrefix("/", kind + tail, pat, rep);
    PassPiece(d, t3, pat, rep);
    ReplaceAllKeepsPrefix("/", d + t3, pat, rep);
    PassPiece(a, t1, pat, rep);
    ReplaceAllKeepsPrefix("/", a + t1, pat, rep);
  }

  /** Each of the three rewrites of the extraction path acts on a storage path
      piece by piece: its pattern holds neither `-` nor `/`, so no occurrence
      can straddle two pieces, and the agency and docket ids hold none. */
  lemma RewriteStoragePath(a: string, d: string, kind: string, folder: string, file: string,
                           pat: string, rep: string)
    requires |pat| > 0 && '/' !in pat && '-' !in pat && !Contains(a, pat) && !Contains(d, pat)
    ensures ReplaceAll(StoragePath(a, d, kind, folder, file), pat, rep)
            == StoragePath(a, d, ReplaceAll(kind, pat, rep), ReplaceAll(folder, pat, rep),
                           ReplaceAll(file, pat, rep))
  {
    var tail := "-" + (d + ("/" + (folder + ("/" + file))));
    RewriteStorageTail(d, folder, file, pat, rep);
    RewriteStorageHead(a, d, kind, tail, pat, rep);
  }

  /** RewriteStoragePath with the rewritten pieces named. */
  lemma RewriteStoragePathTo(a: string, d: string, kind: string, folder: string, file: string,
                             pat: string, rep: string, kind': string, folder': string, file': string)
    requires |pat| > 0 && '/' !in pat && '-' !in pat && !Contains(a, pat) && !Contains(d, pat)
    requires ReplaceAll(kind, pat, rep) == kind' && ReplaceAll(folder, pat, rep) == folder'
    requires ReplaceAll(file, pat, rep) == file'
    ensures ReplaceAll(StoragePath(a, d, kind, folder, file), pat, rep) == StoragePath(a, d, kind', folder', file')
  {
    RewriteStoragePath(a, d, kind, folder, file, pat, rep);
  }

  /** The file name `{itemId}_{name}`: `.pdf` can only occur in the name. */
  lemma PdfInNameOnly(i: string, name: string)
    requires !Contains(i, ".pdf")
    ensures ReplaceAll(i + "_" + name, ".pdf", "_extracted.txt")
            == i + "_" + ReplaceAll(name, ".pdf", "_extracted.txt")
  {
    ReplaceAllKeepsPrefix("_", name, ".pdf", "_extracted.txt");
    PassPiece(i, "_" + name, ".pdf", "_extracted.txt");
    assert i + "_" + name == i + ("_" + name);
    var n' := ReplaceAll(name, ".pdf", "_extracted.txt");
    assert i + "_" + n' == i + ("_" + n');
  }

  /** The file name `{itemId}_{name}` is left alone by a rewrite whose
      pattern lacks `_` and occurs in neither part. */
  lemma FileUntouched(i: string, name: string, pat: string, rep: string)
    requires |pat| > 0 && '_' !in pat && !Contains(i, pat) && !Contains(name, pat)
    ensures ReplaceAll(i + "_" + name, pat, rep) == i + "_" + name
  {
    ReplaceAllIdentity(name, pat, rep);
    ReplaceAllKeepsPrefix("_", name, pat, rep);
    PassPiece(i, "_" + name, pat, rep);
    assert i + "_" + name == i + ("_" + name);
  }

  /** Every attachment path names the comments folder. */
  lemma BinaryPathMentionsComments(a: string, d: string, i: string)
    ensures Contains(BinaryPath(a, d, i), "comments")
  {
    var head := "/" + a + "/" + d + "/binary-" + d + "/";
    assert BinaryPath(a, d, i) == head + "comments" + ("_attachments/" + i);
    ContainsInfix(head, "comments", "_attachments/" + i);
  }

  /** A word at the front of a pattern-free tail: the word is replaced as a whole. */
  lemma WordReplaced(pat: string, rep: string)
    requires |pat| > 0
    ensures ReplaceAll(pat, pat, rep) == rep
  {
    ReplaceAllAtMatch(pat, rep, "");
    assert pat + "" == pat;
  }

  /** First rewrite: the `binary` kind becomes `text`; a folder and a file
      name without `binary` stay as they are. */
  lemma BinaryToTextStep(a: string, d: string, folder: string, i: string, name: string)
    requires !Contains(a, "binary") && !Contains(d, "binary") && !Contains(folder, "binary")
    requires !Contains(i, "binary") && !Contains(name, "binary")
    ensures ReplaceAll(StoragePath(a, d, "binary", folder, i + "_" + name), "binary", "text")
            == StoragePath(a, d, "text", folder, i + "_" + name)
  {
    var pat, rep := "binary", "text";
    WordReplaced(pat, rep);
    ReplaceAllIdentity(folder, pat, rep);
    FileUntouched(i, name, pat, rep);
    RewriteStoragePathTo(a, d, pat, folder, i + "_" + name, pat, rep, rep, folder, i + "_" + name);
  }

  /** Second rewrite: the attachments folder becomes the pdfminer folder;
      a kind shorter than the folder name and a file without it stay. */
  lemma AttachmentsToPdfminerStep(a: string, d: string, kind: string, file: string)
    requires !Contains(a, "comments_attachments") && !Contains(d, "comments_attachments")
    requires |kind| < |"comments_attachments"| && !Contains(file, "comments_attachments")
    ensures ReplaceAll(StoragePath(a, d, kind, "comments_attachments", file),
                       "comments_attachments", "comments_extracted_text/pdfminer")
            == StoragePath(a, d, kind, "comments_extracted_text/pdfminer", file)
  {
    var pat, rep := "comments_attachments", "comments_extracted_text/pdfminer";
    ReplaceAllShort(kind, pat, rep);
    WordReplaced(pat, rep);
    ReplaceAllIdentity(file, pat, rep);
    RewriteStoragePathTo(a, d, kind, pat, file, pat, rep, kind, rep, file);
  }

  /** Third rewrite: `.pdf` becomes `_extracted.txt`, in the attachment name
      only, when the kind, the folder and the item id hold no `.pdf`. */
  lemma PdfToTextStep(a: string, d: string, kind: string, folder: string, i: string, name: string)
    requires !Contains(a, ".pdf") && !Contains(d, ".pdf") && !Contains(kind, ".pdf")
    requires !Contains(folder, ".pdf") && !Contains(i, ".pdf")
    ensures ReplaceAll(StoragePath(a, d, kind, folder, i + "_" + name), ".pdf", "_extracted.txt")
            == StoragePath(a, d, kind, folder, i + "_" + ReplaceAll(name, ".pdf", "_extracted.txt"))
  {
    var pat, rep := ".pdf", "_extracted.txt";
    ReplaceAllIdentity(kind, pat, rep);
    ReplaceAllIdentity(folder, pat, rep);
    PdfInNameOnly(i, name);
    RewriteStoragePathTo(a, d, kind, folder, i + "_" + name, pat, rep,
                         kind, folder, i + "_" + ReplaceAll(name, pat, rep));
  }

  /** The fixed words of the paths hold none of the later patterns. */
  lemma FixedWordsArePlain()
    ensures !Contains("comments_attachments", "binary")
    ensures !Contains("text", ".pdf") && !Contains("comments_extracted_text/pdfminer", ".pdf")
  {
    MissingCharAbsent("comments_attachments", "binary", 'b');
    MissingCharAbsent("text", ".pdf", '.');
    MissingCharAbsent("comments_extracted_text/pdfminer", ".pdf", '.');
  }

  /** The extracted-text path of a generated attachment path: the same
      agency, docket and item under `text-{docket}/comments_extracted_text/pdfminer`,
      with each `.pdf` of the file name turned into `_extracted.txt`. */
  lemma ExtractionPathOfAttachment(a: string, d: string, i: string, name: string)
    requires Plain(a) && Plain(d) && Plain(i)
    requires !Contains(name, "binary") && !Contains(i + "_" + name, "comments_attachments")
    ensures MakeAttachmentSavePath(BinaryPath(a, d, i + "_" + name))
            == StoragePath(a, d, "text", "comments_extracted_text/pdfminer",
                           i + "_" + ReplaceAll(name, ".pdf", "_extracted.txt"))
  {
    var file := i + "_" + name;
    BinaryPathMentionsComments(a, d, file);
    BinaryPathIsStoragePath(a, d, file);
    FixedWordsArePlain();
    BinaryToTextStep(a, d, "comments_attachments", i, name);
    AttachmentsToPdfminerStep(a, d, "text", file);
    PdfToTextStep(a, d, "text", "comments_extracted_text/pdfminer", i, name);
  }
}

=== FILE: replace.dfy ===
/**
 Substring search and Python's `str.replace(pat, rep)` (replace every
 non-overlapping occurrence, scanning left to right), with the lemmas that
 say when a pattern is gone afterwards and when the string is left alone.
 */
module Replace {

  /** Python's `x in s` on strings: `x` occurs in `s` as a contiguous piece. */
  predicate Contains(s: string, x: string) {
    exists k | 0 <= k <= |s| - |x| :: OccursAt(s, x, k)
  }

  /** `x` occurs in `s` starting at index `k`. */
  predicate OccursAt(s: string, x: string, k: int) {
    0 <= k <= |s| - |x| && s[k..k + |x|] == x
  }

  /** Python's `s.replace(pat, rep)` for a non-empty pattern. */
  function ReplaceAll(s: string, pat: string, rep: string): string
    requires |pat| > 0
    decreases |s|
  {
    if |s| < |pat| then s
    else if s[..|pat|] == pat then rep + ReplaceAll(s[|pat|..], pat, rep)
    else [s[0]] + ReplaceAll(s[1..], pat, rep)
  }

  /** No occurrence of `x` can start inside `rep`: wherever `rep` has the first
      character of `x`, the next character of `rep` differs from the second of `x`. */
  predicate Unaligned(rep: string, x: string)
    requires |x| > 0
  {
    forall k :: 0 <= k < |rep| && rep[k] == x[0] ==>
      k + 1 < |rep| && |x| > 1 && rep[k + 1] != x[1]
  }

  /** An occurrence in a suffix is an occurrence in the whole string. */
  lemma ContainsSuffix(s: string, j: nat, x: string)
    requires j <= |s| && Contains(s[j..], x)
    ensures Contains(s, x)
  {
    var k :| OccursAt(s[j..], x, k);
    assert OccursAt(s[j..], x, k);
    assert 0 <= k <= |s| - j - |x|;
    assert s[j..][k..k + |x|] == s[j + k..j + k + |x|];
    assert OccursAt(s, x, j + k);
  }

  /** A string holds every piece it is assembled from. */
  lemma ContainsInfix(u: string, x: string, v: string)
    ensures Contains(u + x + v, x)
  {
    var s := u + x + v;
    assert s[|u|..|u| + |x|] == x;
    assert OccursAt(s, x, |u|);
  }

  /** A string lacking one of the characters of `x` does not contain `x`. */
  lemma MissingCharAbsent(s: string, x: string, c: char)
    requires c in x && c !in s
    ensures !Contains(s, x)
  {
    var j :| 0 <= j < |x| && x[j] == c;
    forall k | 0 <= k <= |s| - |x|
      ensures !OccursAt(s, x, k)
    {
      assert s[k..k + |x|][j] == s[k + j];
      assert s[k + j] in s;
    }
  }

  /** A string without the pattern comes back unchanged. */
  lemma {:induction false} ReplaceAllIdentity(s: string, pat: string, rep: string)
    requires |pat| > 0
    requires !Contains(s, pat)
    ensures ReplaceAll(s, pat, rep) == s
    decreases |s|
  {
    if |s| >= |pat| {
      assert s[0..|pat|] == s[..|pat|];
      assert !OccursAt(s, pat, 0);
      if Contains(s[1..], pat) {
        ContainsSuffix(s, 1, pat);
      }
      ReplaceAllIdentity(s[1..], pat, rep);
      assert [s[0]] + s[1..] == s;
    }
  }

  /** A match at the front is replaced and the scan resumes after it. */
  lemma ReplaceAllAtMatch(pat: string, rep: string, v: string)
    requires |pat| > 0
    ensures ReplaceAll(pat + v, pat, rep) == rep + ReplaceAll(v, pat, rep)
  {
    assert (pat + v)[..|pat|] == pat;
    assert (pat + v)[|pat|..] == v;
  }

  /** A prefix without the pattern's first character is copied through. */
  lemma {:induction false} ReplaceAllKeepsPrefix(u: string, v: string, pat: string, rep: string)
    requires |pat| > 0
    requires pat[0] !in u
    ensures ReplaceAll(u + v, pat, rep) == u + ReplaceAll(v, pat, rep)
    decreases |u|
  {
    if |u| > 0 {
      var s := u + v;
      assert s[0] == u[0];
      assert s[1..] == u[1..] + v;
      assert pat[0] !in u[1..];
      ReplaceAllKeepsPrefix(u[1..], v, pat, rep);
      if |s| >= |pat| {
        assert s[..|pat|][0] != pat[0];
      }
      KeepFirst(s, pat, rep);
      assert [u[0]] + (u[1..] + ReplaceAll(v, pat, rep)) == u + ReplaceAll(v, pat, rep);
    } else {
      assert u + v == v;
    }
  }

  /** Replacement distributes over a cut in front of a character the pattern
      does not contain: no occurrence can straddle such a cut. */
  lemma {:induction false} ReplaceAllSplit(u: string, v: string, pat: string, rep: string)
    requires |pat| > 0 && |v| > 0 && v[0] !in pat
    ensures ReplaceAll(u + v, pat, rep) == ReplaceAll(u, pat, rep) + ReplaceAll(v, pat, rep)
    decreases |u|
  {
    if |u| == 0 {
      assert u + v == v;
    } else if |u| >= |pat| && u[..|pat|] == pat {
      SplitAtMatch(u, v, pat, rep);
    } else {
      SplitAtKeep(u, v, pat, rep);
    }
  }

  /** ReplaceAllSplit when `u` starts with the pattern. */
  lemma {:induction false} SplitAtMatch(u: string, v: string, pat: string, rep: string)
    requires |pat| > 0 && |v| > 0 && v[0] !in pat
    requires |u| >= |pat| && u[..|pat|] == pat
    ensures ReplaceAll(u + v, pat, rep) == ReplaceAll(u, pat, rep) + ReplaceAll(v, pat, rep)
    decreases |u|, 0
  {
    var u' := u[|pat|..];
    assert u == pat + u';
    assert u + v == pat + (u' + v);
    ReplaceAllAtMatch(pat, rep, u');
    ReplaceAllAtMatch(pat, rep, u' + v);
    ReplaceAllSplit(u', v, pat, rep);
  }

  /** ReplaceAllSplit when `u` does not start with the pattern. */
  lemma {:induction false} SplitAtKeep(u: string, v: string, pat: string, rep: string)
    requires |pat| > 0 && |v| > 0 && v[0] !in pat && |u| > 0
    requires |u| < |pat| || u[..|pat|] != pat
    ensures ReplaceAll(u + v, pat, rep) == ReplaceAll(u, pat, rep) + ReplaceAll(v, pat, rep)
    decreases |u|, 0
  {
    var a, b := ReplaceAll(u[1..], pat, rep), ReplaceAll(v, pat, rep);
    KeepFirstAcrossCut(u, v, pat, rep);
    ReplaceAllSplit(u[1..], v, pat, rep);
    KeepFirst(u, pat, rep);
    assert [u[0]] + (a + b) == ([u[0]] + a) + b;
  }

  /** When `u` does not start with the pattern, neither does `u + v`: its
      first character is copied and the scan moves on into `u[1..] + v`. */
  lemma KeepFirstAcrossCut(u: string, v: string, pat: string, rep: string)
    requires |pat| > 0 && |v| > 0 && v[0] !in pat && |u| > 0
    requires |u| < |pat| || u[..|pat|] != pat
    ensures ReplaceAll(u + v, pat, rep) == [u[0]] + ReplaceAll(u[1..] + v, pat, rep)
  {
    var s := u + v;
    NoMatchAcrossCut(u, v, pat);
    KeepFirst(s, pat, rep);
    assert s[0] == u[0] && s[1..] == u[1..] + v;
  }

  /** `u + v` does not start with the pattern when `u` does not and `v`
      starts with a character the pattern lacks. */
  lemma NoMatchAcrossCut(u: string, v: string, pat: string)
    requires |pat| > 0 && |v| > 0 && v[0] !in pat && |u| > 0
    requires |u| < |pat| || u[..|pat|] != pat
    ensures |u + v| < |pat| || (u + v)[..|pat|] != pat
  {
    if |u + v| >= |pat| {
      if |u| < |pat| {
        assert pat[|u|] in pat;
        assert (u + v)[..|pat|][|u|] == v[0] != pat[|u|];
      } else {
        assert (u + v)[..|pat|] == u[..|pat|];
      }
    }
  }

  /** When a non-empty `u` does not start with the pattern, its first character
      is copied and the scan moves one step on. */
  lemma KeepFirst(u: string, pat: string, rep: string)
    requires |pat| > 0 && |u| > 0
    requires |u| < |pat| || u[..|pat|] != pat
    ensures ReplaceAll(u, pat, rep) == [u[0]] + ReplaceAll(u[1..], pat, rep)
  {
    if |u| < |pat| {
      ReplaceAllShort(u, pat, rep);
      ReplaceAllShort(u[1..], pat, rep);
      assert u == [u[0]] + u[1..];
    }
  }

  /** A replacement without the first character of `x` cannot start an occurrence of it. */
  lemma FirstCharMissing(rep: string, x: string)
    requires |x| > 0 && x[0] !in rep
    ensures Unaligned(rep, x)
  {
  }

  /** A string shorter than the pattern comes back unchanged. */
  lemma ReplaceAllShort(s: string, pat: string, rep: string)
    requires |pat| > 0 && |s| < |pat|
    ensures ReplaceAll(s, pat, rep) == s
  {
  }

  /** When the input starts with the pattern, the output starts with the
      replacement, so any prefix of the output holds the replacement's first character. */
  lemma RepLeadsOutput(s: string, pat: string, rep: string, p: string)
    requires |pat| > 0 && |rep| > 0 && |p| > 0
    requires |s| >= |pat| && s[..|pat|] == pat
    requires |ReplaceAll(s, pat, rep)| >= |p| && ReplaceAll(s, pat, rep)[..|p|] == p
    ensures rep[0] in p
  {
    var r := ReplaceAll(s, pat, rep);
    assert r == rep + ReplaceAll(s[|pat|..], pat, rep);
    assert p[0] == r[0] == rep[0];
  }

  /** If the output starts with `p` and `p` avoids the first character of the
      replacement, then the input already started with `p`. */
  lemma {:induction false} PrefixSurvives(s: string, pat: string, rep: string, p: string)
    requires |pat| > 0 && |rep| > 0 && rep[0] !in p
    requires |ReplaceAll(s, pat, rep)| >= |p| && ReplaceAll(s, pat, rep)[..|p|] == p
    ensures |s| >= |p| && s[..|p|] == p
    decreases |s|
  {
    var r := ReplaceAll(s, pat, rep);
    if |p| > 0 && |s| >= |pat| {
      if s[..|pat|] == pat {
        RepLeadsOutput(s, pat, rep, p);
        assert false;
      } else {
        var t := ReplaceAll(s[1..], pat, rep);
        assert r == [s[0]] + t;
        assert t[..|p| - 1] == p[1..];
        PrefixSurvives(s[1..], pat, rep, p[1..]);
        assert s[..|p|] == [s[0]] + s[1..][..|p| - 1];
      }
    }
  }

  /** After replacing `pat` by `rep`, the string holds no `x`, provided `x` is
      the pattern itself or was absent before, and `rep` can neither start an
      occurrence of `x` nor end one that began earlier. */
  lemma {:induction false} ReplaceAllAvoids(s: string, pat: string, rep: string, x: string)
    requires |pat| > 0 && |rep| > 0 && |x| > 0
    requires x == pat || !Contains(s, x)
    requires rep[0] !in x
    requires Unaligned(rep, x)
    ensures !Contains(ReplaceAll(s, pat, rep), x)
    decreases |s|
  {
    if |s| < |pat| {
      ReplaceAllShort(s, pat, rep);
      if x == pat {
        assert !OccursAt(s, x, 0);
      }
    } else if s[..|pat|] == pat {
      var t := s[|pat|..];
      if x != pat && Contains(t, x) {
        ContainsSuffix(s, |pat|, x);
      }
      ReplaceAllAvoids(t, pat, rep, x);
      assert ReplaceAll(s, pat, rep) == rep + ReplaceAll(t, pat, rep);
      AvoidsAfterRep(rep, ReplaceAll(t, pat, rep), x);
    } else {
      var t := s[1..];
      if x != pat && Contains(t, x) {
        ContainsSuffix(s, 1, x);
      }
      ReplaceAllAvoids(t, pat, rep, x);
      AvoidsAfterKeep(s, pat, rep, x);
    }
  }

  /** Placing `rep` in front of a string without `x` creates no `x`. */
  lemma AvoidsAfterRep(rep: string, rt: string, x: string)
    requires |x| > 0 && |rep| > 0 && rep[0] !in x && Unaligned(rep, x)
    requires !Contains(rt, x)
    ensures !Contains(rep + rt, x)
  {
    var r := rep + rt;
    forall k | 0 <= k <= |r| - |x|
      ensures !OccursAt(r, x, k)
    {
      if k >= |rep| {
        assert r[k..k + |x|] == rt[k - |rep|..k - |rep| + |x|];
        assert !OccursAt(rt, x, k - |rep|);
      } else if rep[k] != x[0] {
        assert r[k..k + |x|][0] == rep[k];
      } else {
        assert r[k..k + |x|][1] == rep[k + 1];
      }
    }
  }

  /** An occurrence at the front of `[c] + t` is `c` followed by an
      occurrence at the front of `t`. */
  lemma ConsPrefixApart(c: char, t: string, x: string)
    requires |x| > 0 && OccursAt([c] + t, x, 0)
    ensures c == x[0] && |t| >= |x| - 1 && t[..|x| - 1] == x[1..]
  {
    var r := [c] + t;
    assert r[..|x|] == x;
    assert r[0] == x[0];
    assert t[..|x| - 1] == r[1..|x|];
  }

  /** `c` followed by the rest of `x` at the front of `t` is `x` at the front of `[c] + t`. */
  lemma ConsPrefixTogether(c: char, t: string, x: string)
    requires |x| > 0 && c == x[0] && |t| >= |x| - 1 && t[..|x| - 1] == x[1..]
    ensures |[c] + t| >= |x| && ([c] + t)[..|x|] == x
  {
    assert ([c] + t)[..|x|] == [c] + t[..|x| - 1];
  }

  /** An occurrence of `x` at the front of the output, when the first input
      character was copied, was already at the front of the input. */
  lemma FrontOccurrenceSurvives(s: string, pat: string, rep: string, x: string)
    requires |pat| > 0 && |rep| > 0 && |x| > 0 && rep[0] !in x
    requires |s| >= |pat| && s[..|pat|] != pat
    requires OccursAt(ReplaceAll(s, pat, rep), x, 0)
    ensures OccursAt(s, x, 0) && s[..|x|] == x
  {
    var t := s[1..];
    var rt := ReplaceAll(t, pat, rep);
    KeepFirst(s, pat, rep);
    ConsPrefixApart(s[0], rt, x);
    assert rep[0] !in x[1..];
    PrefixSurvives(t, pat, rep, x[1..]);
    assert s == [s[0]] + t;
    ConsPrefixTogether(s[0], t, x);
  }

  /** The step of ReplaceAllAvoids where the first character is copied. */
  lemma AvoidsAfterKeep(s: string, pat: string, rep: string, x: string)
    requires |pat| > 0 && |rep| > 0 && |x| > 0 && rep[0] !in x
    requires |s| >= |pat| && s[..|pat|] != pat
    requires x == pat || !Contains(s, x)
    requires !Contains(ReplaceAll(s[1..], pat, rep), x)
    ensures !Contains(ReplaceAll(s, pat, rep), x)
  {
    var rt := ReplaceAll(s[1..], pat, rep);
    var r := ReplaceAll(s, pat, rep);
    KeepFirst(s, pat, rep);
    if OccursAt(r, x, 0) {
      FrontOccurrenceSurvives(s, pat, rep, x);
      assert false;
    }
    ConsAvoids(s[0], rt, x);
  }

  /** A character in front of a string without `x` creates an `x` only at the front. */
  lemma ConsAvoids(c: char, t: string, x: string)
    requires |x| > 0 && !Contains(t, x) && !OccursAt([c] + t, x, 0)
    ensures !Contains([c] + t, x)
  {
    var r := [c] + t;
    forall k | 1 <= k <= |r| - |x|
      ensures !OccursAt(r, x, k)
    {
      assert r[k..k + |x|] == t[k - 1..k - 1 + |x|];
      assert !OccursAt(t, x, k - 1);
    }
  }
}

=== FILE: strings.dfy ===
/**
 Python's `str.split(sep)` and `sep.join(parts)` for a one-character separator,
 and the "last segment" of a string, with the lemmas that relate them.
 */
module Strings {

  /** Python's `s.split(sep)`: the maximal separator-free pieces of `s`, in order.
      Like Python, it never returns the empty list (`"".split("-") == [""]`). */
  function Split(s: string, sep: char): (parts: seq<string>)
    ensures |parts| >= 1
    decreases |s|
  {
    if |s| == 0 then [""]
    else
      var rest := Split(s[1..], sep);
      if s[0] == sep then [""] + rest
      else [[s[0]] + rest[0]] + rest[1..]
  }

  /** Python's `sep.join(parts)`. */
  function Join(parts: seq<string>, sep: char): string
    decreases |parts|
  {
    if |parts| == 0 then ""
    else if |parts| == 1 then parts[0]
    else parts[0] + [sep] + Join(parts[1..], sep)
  }

  /** The text after the final separator, or all of `s` when it has none:
      Python's `s.split(sep)[-1]`. */
  function LastSegment(s: string, sep: char): (r: string)
    ensures sep !in r
    ensures |r| <= |s| && s[|s| - |r|..] == r
  {
    var parts := Split(s, sep);
    LastSegmentIsSuffix(s, sep);
    SplitPiecesSepFree(s, sep);
    parts[|parts| - 1]
  }

  /** No piece of a split holds the separator. */
  lemma {:induction false} SplitPiecesSepFree(s: string, sep: char)
    ensures forall k :: 0 <= k < |Split(s, sep)| ==> sep !in Split(s, sep)[k]
    decreases |s|
  {
    if |s| > 0 {
      SplitPiecesSepFree(s[1..], sep);
      var rest := Split(s[1..], sep);
      if s[0] != sep {
        var parts := Split(s, sep);
        assert parts == [[s[0]] + rest[0]] + rest[1..];
        assert sep !in rest[0];
        assert s[0] != sep;
        assert sep !in parts[0];
        forall k | 1 <= k < |parts|
          ensures sep !in parts[k]
        {
          assert parts[k] == rest[1..][k - 1] == rest[k];
        }
      }
    }
  }

  /** A string without the separator splits into itself alone. */
  lemma {:induction false} SplitNoSep(s: string, sep: char)
    requires sep !in s
    ensures Split(s, sep) == [s]
    decreases |s|
  {
    if |s| > 0 {
      assert sep !in s[1..];
      SplitNoSep(s[1..], sep);
      assert [s[0]] + s[1..] == s;
    }
  }

  /** One step of Split: a leading separator starts a new piece, any other
      character joins the first piece of the rest. */
  lemma SplitCons(c: char, t: string, sep: char)
    ensures Split([c] + t, sep)
            == if c == sep then [""] + Split(t, sep)
               else [[c] + Split(t, sep)[0]] + Split(t, sep)[1..]
  {
    var s := [c] + t;
    assert s[0] == c;
    assert s[1..] == t;
  }

  /** Splitting distributes over a separator: the pieces of `a + sep + b` are
      the pieces of `a` followed by the pieces of `b`. */
  lemma {:induction false} SplitAppend(a: string, sep: char, b: string)
    ensures Split(a + [sep] + b, sep) == Split(a, sep) + Split(b, sep)
    decreases |a|
  {
    if |a| == 0 {
      assert a + [sep] + b == [sep] + b;
      SplitCons(sep, b, sep);
    } else {
      var c, a' := a[0], a[1..];
      assert a == [c] + a';
      assert a + [sep] + b == [c] + (a' + [sep] + b);
      SplitAppend(a', sep, b);
      SplitConsAppend(c, Split(a', sep), Split(a' + [sep] + b, sep), Split(b, sep), sep);
      SplitCons(c, a' + [sep] + b, sep);
      SplitCons(c, a', sep);
    }
  }

  /** The step of SplitAppend: consing a character onto both sides of
      `tail == rest + more` keeps them equal, pieces-wise. */
  lemma SplitConsAppend(c: char, rest: seq<string>, tail: seq<string>, more: seq<string>, sep: char)
    requires |rest| >= 1 && tail == rest + more
    ensures (if c == sep then [""] + tail else [[c] + tail[0]] + tail[1..])
            == (if c == sep then [""] + rest else [[c] + rest[0]] + rest[1..]) + more
  {
    if c != sep {
      assert tail[0] == rest[0];
      assert tail[1..] == rest[1..] + more;
    }
  }

  /** Joining the pieces of a split gives back the original string. */
  lemma {:induction false} JoinSplit(s: string, sep: char)
    ensures Join(Split(s, sep), sep) == s
    decreases |s|
  {
    if |s| > 0 {
      var rest := Split(s[1..], sep);
      JoinSplit(s[1..], sep);
      var parts := Split(s, sep);
      if s[0] == sep {
        assert parts == [""] + rest;
        assert parts[1..] == rest;
        assert Join(parts, sep) == "" + [sep] + Join(rest, sep);
        assert [s[0]] + s[1..] == s;
      } else if |rest| == 1 {
        assert parts == [[s[0]] + rest[0]];
        assert [s[0]] + s[1..] == s;
      } else {
        assert parts[1..] == rest[1..];
        assert Join(rest, sep) == rest[0] + [sep] + Join(rest[1..], sep);
        assert Join(parts, sep) == [s[0]] + rest[0] + [sep] + Join(rest[1..], sep);
        assert [s[0]] + s[1..] == s;
      }
    }
  }

  /** Splitting the join of separator-free pieces gives back the pieces. */
  lemma {:induction false} SplitJoin(parts: seq<string>, sep: char)
    requires |parts| >= 1
    requires forall k :: 0 <= k < |parts| ==> sep !in parts[k]
    ensures Split(Join(parts, sep), sep) == parts
    decreases |parts|
  {
    SplitNoSep(parts[0], sep);
    if |parts| > 1 {
      SplitJoin(parts[1..], sep);
      SplitAppend(parts[0], sep, Join(parts[1..], sep));
      assert [parts[0]] + parts[1..] == parts;
    }
  }

  /** Appending a separator and a separator-free piece adds exactly that
      piece to the split. */
  lemma SplitSnoc(a: string, sep: char, b: string)
    requires sep !in b
    ensures Split(a + [sep] + b, sep) == Split(a, sep) + [b]
  {
    SplitAppend(a, sep, b);
    SplitNoSep(b, sep);
  }

  /** The last piece of a split is a suffix of the string. */
  lemma {:induction false} LastSegmentIsSuffix(s: string, sep: char)
    ensures var parts := Split(s, sep);
      |parts[|parts| - 1]| <= |s| && s[|s| - |parts[|parts| - 1]|..] == parts[|parts| - 1]
    decreases |s|
  {
    if |s| > 0 {
      var rest := Split(s[1..], sep);
      LastSegmentIsSuffix(s[1..], sep);
      LastOfSplitCons(s, sep);
      if s[0] == sep || |rest| > 1 {
        SuffixOfTail(s, rest[|rest| - 1]);
      } else {
        SingleSplit(s[1..], sep);
        assert [s[0]] + s[1..] == s;
      }
    }
  }

  /** How the last piece of a split relates to the split of the tail. */
  lemma LastOfSplitCons(s: string, sep: char)
    requires |s| > 0
    ensures var parts, rest := Split(s, sep), Split(s[1..], sep);
      && (s[0] == sep || |rest| > 1 ==> parts[|parts| - 1] == rest[|rest| - 1])
      && (s[0] != sep && |rest| == 1 ==> parts == [[s[0]] + rest[0]])
  {
  }

  /** A split into one piece leaves the string whole. */
  lemma SingleSplit(t: string, sep: char)
    requires |Split(t, sep)| == 1
    ensures Split(t, sep)[0] == t
  {
    JoinSplit(t, sep);
  }

  /** A suffix of the tail is a suffix of the whole. */
  lemma SuffixOfTail(s: string, x: string)
    requires |s| > 0 && |x| <= |s| - 1 && s[1..][|s| - 1 - |x|..] == x
    ensures |x| <= |s| && s[|s| - |x|..] == x
  {
    assert s[|s| - |x|..] == s[1..][|s| - 1 - |x|..];
  }

  /** The last segment of `p + sep + n`, for separator-free `n`, is `n`. */
  lemma LastSegmentAfterSep(p: string, sep: char, n: string)
    requires sep !in n
    ensures LastSegment(p + [sep] + n, sep) == n
  {
    SplitAppend(p, sep, n);
    SplitNoSep(n, sep);
  }

  /** A string without the separator is its own last segment. */
  lemma LastSegmentNoSep(s: string, sep: char)
    requires sep !in s
    ensures LastSegment(s, sep) == s
  {
    SplitNoSep(s, sep);
  }

  /** Every string containing the separator splits around its last occurrence:
      a head, the separator, and a separator-free tail. */
  lemma {:induction false} LastSepDecomposition(s: string, sep: char) returns (d: string, t: string)
    requires sep in s
    ensures s == d + [sep] + t && sep !in t
    decreases |s|
  {
    var last := s[|s| - 1];
    if last == sep {
      d, t := s[..|s| - 1], "";
    } else {
      var front := s[..|s| - 1];
      assert s == front + [last];
      var d', t' := LastSepDecomposition(front, sep);
      d, t := d', t' + [last];
    }
  }
}

=== FILE: wrappers.dfy ===
/** Python's `None` next to a present value. */
module Wrappers {

  /** A record field or an id that Python holds either as a value or as `None`. */
  datatype Option<+T> = None | Some(value: T) {

    /** The value held in Some, or the given default when None. */
    function GetOr(default: T): T {
      match this
      case Some(v) => v
      case None => default
    }
  }
}
